=== FILE: README.md ===
# User service: DynamoDB stores, request validation and handlers

This project models, in Dafny, the user service of the `real-life-cdk-ts` repository. The service exists in two variants that share one data shape.

- **Serverless variant.** API Gateway validates each request against JSON schemas and checks the API key. Three Lambda handlers (create, get, update) then call a DynamoDB user store. The store reports failures as `APIError(message, httpStatus)`.
- **ECS variant.** An Express router validates with Joi and calls a second DynamoDB user store. That store throws plain strings or rethrows the SDK error.

A user is `{username, fullName, email, address?}`. Both stores keep user `u` as one item with partition key `USER#u` and sort key `#PROFILE#u`. `updateUser` builds a DynamoDB `SET #k = :k, ...` update expression from the patch entries.

The modules:

- `Wrappers`, `Strings`, `Json`: Option/Result, string joining, character classes and JavaScript's UTF-16 string length, and JSON objects as ordered member lists.
- `Users`: the `User` record and an update patch as an ordered list of field entries.
- `UpdateExpression`: the update-expression builder, plus a parser for the `SET` form it emits.
- `Dynamo`: the table as a map from key to attribute map.
  - Conditional `PutItem` and `GetItem`.
  - `UpdateItem`, which parses and resolves the expression and rejects what DynamoDB rejects.
  - Every SDK call takes an `injected` failure, standing for whatever the client or the service may report.
- `Records`: how a user is laid out as an item, and the `Profiles` table invariant (every item has `fullName` and `email`).
- `ServerlessStore` and `EcsStore`: the two `UserStoreDynamoDB` classes.
- `Api`: `APIError` and `APIGatewayResponse`.
- `Bodies`: how a parsed request body is read as a `User` or as a patch.
- `Gateway`: API Gateway's key check and its request-model validation.
- `Lambdas`: the three handlers.
- `ServerlessApi`: the gateway and the handlers composed.
- `Joi`: the subset of Joi used by the router (abort-early off).
- `EcsRoutes`: the router's three routes.
- `Validators`: how the two validators relate.
- `EcsStoreSpec`, `EcsRoutesSpec`, `ServerlessApiSpec`: the repository's unit and integration tests, stated as lemmas about the model.

## Model

| member | source | states |
|---|---|---|
| Records.KeyOfInjective | packages/rest-api-serverless/src/store/user/user-store-dynamodb.ts:28-29 | The `USER#u` / `#PROFILE#u` key identifies the username: two usernames share a key exactly when they are equal |
| Records.ItemOf | packages/rest-api-serverless/src/store/user/user-store-dynamodb.ts:23-31 | The stored item carries the user's key and exactly the attributes `PK`, `SK`, `fullName`, `email`, plus `address` when present. Each holds the user's value |
| Records.ToUserItemOf | packages/rest-api-serverless/src/store/user/user-store-dynamodb.ts:60-65 | Reading back a stored user's item yields that user (store/load round trip) |
| Records.Entries | packages/rest-api-serverless/src/store/user/user-store-dynamodb.ts:77 | `Object.entries(props)` gives one `[name, value]` pair per patch entry, in order. The names are distinct identifiers and never the key attributes |
| Records.InterpretUpdateFor | packages/rest-api-serverless/src/store/user/user-store-dynamodb.ts:77-99 | The table interprets the request built for a non-empty patch as exactly the patch's assignments. For an empty patch it finds no valid expression |
| Records.PatchMapContent | packages/rest-api-serverless/src/store/user/user-store-dynamodb.ts:75 | The assignments of a patch touch only profile fields, and a field is assigned exactly when the patch mentions it, with the patch's value |
| Records.ApplyEntries | packages/rest-api-serverless/src/store/user/user-store-dynamodb.ts:79-102 | Applying the resolved `SET` assignments to an item gives the item overlaid with the patch |
| Records.PatchedField | packages/rest-api-serverless/src/store/user/user-store-dynamodb.ts:86 | After an update a field is present iff it was present before or the patch sets it. A set field has the patch's value; an untouched one keeps its old value |
| Records.ToUserPatched | packages/rest-api-serverless/src/store/user/user-store-dynamodb.ts:60-65 | Reading a user back after the update gives the old user with the patched fields replaced |
| Records.UpdateKeepsKey | packages/rest-api-serverless/src/store/user/user-store-dynamodb.ts:81-86 | An update never changes an item's `PK` or `SK` |
| Records.PatchedKeepsProfile | packages/rest-api-ecs/src/store/user/user-store.ts:13-18 | An update keeps every item a complete profile with `fullName` and `email` |
| Users.Patched | packages/rest-api-ecs/src/store/user/user-store.ts:23 | Updating a user keeps the username. Each field takes the patch's value when the patch names it and keeps its old value otherwise |
| Users.Lookup | packages/rest-api-ecs/src/store/user/user-store.ts:23 | A patch gives a value for a field exactly when one of its entries names that field, and the value is that entry's |
| UpdateExpression.ParseBuild | packages/rest-api-serverless/src/store/user/user-store-dynamodb.ts:86 | The built expression reads back as one `#k = :k` clause per entry, in entry order. For no entries it is `"SET "`, which does not parse |
| UpdateExpression.NamesContent | packages/rest-api-serverless/src/store/user/user-store-dynamodb.ts:87-93 | `ExpressionAttributeNames` maps `#k` to `k` for every patch key and holds nothing else |
| UpdateExpression.ValuesContent | packages/rest-api-serverless/src/store/user/user-store-dynamodb.ts:94-99 | With distinct keys, `ExpressionAttributeValues` maps `:k` to the entry's value for every entry and holds nothing else |
| UpdateExpression.PlaceholdersUsed | packages/rest-api-serverless/src/store/user/user-store-dynamodb.ts:86-99 | The names and values maps define exactly the placeholders the expression uses, so DynamoDB's unused-placeholder rule never fires |
| Dynamo.InterpretBuild | packages/rest-api-ecs/src/store/user/user-store-dynamodb.ts:84-97 | The table resolves the builder's request for distinct, non-key identifier entries back to those entries. An empty entry list is rejected |
| Dynamo.ApplySetsContent | packages/rest-api-ecs/src/store/user/user-store-dynamodb.ts:84 | `SET` assignments add exactly the assigned attributes, give each its value, and leave every other attribute as it was |
| Dynamo.ApplySetsOverlay | packages/rest-api-ecs/src/store/user/user-store-dynamodb.ts:84 | Applying distinct `SET` assignments is a map overlay of the item with the assignments |
| ServerlessStore.CreateUser | packages/rest-api-serverless/src/store/user/user-store-dynamodb.ts:21-42 | Without an SDK failure, create succeeds iff the key is absent, and then writes exactly the user's item. An existing user, or a conditional-check failure, gives `APIError('username exists', 400)`; any other failure gives 500 `cannot create user. …`. `Profiles` is preserved |
| ServerlessStore.GetUser | packages/rest-api-serverless/src/store/user/user-store-dynamodb.ts:44-73 | Without an SDK failure, get succeeds iff the key is present and returns the stored user under the requested username. A missing user gives 404 `username not found`; any SDK failure gives 500 `cannot find user: …` |
| ServerlessStore.UpdateUser | packages/rest-api-serverless/src/store/user/user-store-dynamodb.ts:75-110 | A non-empty patch without SDK failure succeeds iff the user exists and overlays the patch on that item only. A missing user, or a conditional-check failure, gives 404. An empty patch is rejected by DynamoDB and surfaces as 500 `cannot update user. ValidationException: ` followed by the service's message (`Error.prototype.toString` drops the `: ` when that message is empty). Other failures give 500 `cannot update user. ` followed by the error's printed form. `Profiles` is preserved |
| ServerlessStore.AtMostOneCreate | packages/rest-api-serverless/src/store/user/user-store-dynamodb.ts:32 | Over any sequence of create attempts, at most one create of a given username succeeds, and none does if the user already existed |
| EcsStore.CreateUser | packages/rest-api-ecs/src/store/user/user-store-dynamodb.ts:19-42 | Create has no condition: without an SDK failure it always succeeds and writes the user's item, overwriting any old one. A conditional failure throws `'username exists'`, a service error throws its message, and anything else is rethrown |
| EcsStore.GetUser | packages/rest-api-ecs/src/store/user/user-store-dynamodb.ts:44-71 | Without an SDK failure, get returns a user iff the key is present, namely the stored user. A service error throws its message; anything else is rethrown |
| EcsStore.UpdateUser | packages/rest-api-ecs/src/store/user/user-store-dynamodb.ts:73-112 | The same update semantics as the serverless store. A missing user throws `'username not found'`; an empty patch throws DynamoDB's validation message; other errors are classified as in create |
| EcsStore.CreateOverwrites | packages/rest-api-ecs/src/store/user/user-store-dynamodb.ts:22-30 | Creating the same username twice succeeds both times and leaves the second user's item |
| EcsStoreSpec.CreateInputAsTested | packages/rest-api-ecs/src/store/user/user-store-dynamodb.spec.ts:24-45 | The item for `unittest` is exactly the one the unit test expects. The condition text is the tested one, but the ECS store sends no condition |
| EcsStoreSpec.CreateRequestsDiffer | packages/rest-api-ecs/src/store/user/user-store-dynamodb.spec.ts:31-44 | Both stores write the same item; only the serverless store adds the `attribute_not_exists` condition |
| EcsStoreSpec.ConditionalFailureAsTested | packages/rest-api-ecs/src/store/user/user-store-dynamodb.spec.ts:47-57 | A conditional-check failure on create gives `username exists` in both stores: as `APIError(…, 400)` in the serverless one and as a thrown string in the ECS one |
| EcsStoreSpec.OtherFailureAsTested | packages/rest-api-ecs/src/store/user/user-store-dynamodb.spec.ts:59-71 | The test's mock rejects with the bare string `'some other error'`. For any table, user and patch, the serverless store answers 500 `cannot create user. some other error` on create and `cannot update user. some other error` on update, which differ from the tested `… Error: some other error`; the ECS store rethrows the string on both. Neither store meets this test or its update twin (lines 161-172) |
| EcsStoreSpec.GetAsTested | packages/rest-api-ecs/src/store/user/user-store-dynamodb.spec.ts:75-107 | Getting `unittest` from the tested item returns the tested user with address `Mars` |
| EcsStoreSpec.MissingUserAsTested | packages/rest-api-ecs/src/store/user/user-store-dynamodb.spec.ts:109-118 | A missing user is 404 `username not found` in the serverless store but `undefined` in the ECS store |
| EcsStoreSpec.BuilderAsTested | packages/rest-api-ecs/src/store/user/user-store-dynamodb.spec.ts:122-149 | For the tested patch, the builder emits exactly the tested expression, names map and values map |
| EcsStoreSpec.UpdateInputAsTested | packages/rest-api-ecs/src/store/user/user-store-dynamodb.spec.ts:122-149 | The update request sent for the tested patch has the tested key, condition and expression |
| Bodies.UserOfBodyOf | packages/rest-api-ecs/src/store/user/user-store.ts:13-18 | A user written out as the create body a client sends (the three required members, then `address` when present) reads back as exactly that user |
| Bodies.FieldOf | packages/rest-api-ecs/src/store/user/user-store.ts:23 | A member name is a profile field iff it is `fullName`, `email` or `address` |
| Bodies.PatchOf | packages/rest-api-ecs/src/store/user/user-store.ts:23 | A body reads as a patch iff every member is a profile field with a string value. The patch has one entry per member, in body order |
| Gateway.AcceptsExactly | packages/rest-api-serverless/infra/api/users.ts:116-134 | The request model accepts a body iff every member is a declared property with a string value and every required property is present |
| Gateway.ReportsNames | packages/rest-api-serverless/infra/api/users.ts:132-133 | A rejection for missing properties names exactly the missing required ones, and one for extra members names exactly the undeclared ones |
| Gateway.CreateAcceptsUsers | packages/rest-api-serverless/infra/api/users.ts:116-134 | `createUserSchema` accepts a body iff the body reads as a `User` |
| Gateway.UpdateAcceptsPatches | packages/rest-api-serverless/infra/api/users.ts:136-150 | `updateUserSchema` accepts a body iff the body reads as a patch |
| Gateway.UpdateAcceptsEmpty | packages/rest-api-serverless/infra/api/users.ts:136-150 | `updateUserSchema` has no required property, so the empty object passes and reads as the empty patch |
| Gateway.Admit | packages/rest-api-serverless/infra/api/users.ts:40-112 | A request is refused as forbidden iff its method needs a key and no valid key came. It is admitted iff the key check, the path parameter and the body model all pass |
| Lambdas.Create | packages/glue-etl/src/lambdas/users-create.ts:7-25 | A missing body gives 400 `missing request body`. 201 `user created` comes iff the body parses, no SDK failure occurs and the user is new, and then the table gains exactly that user. An existing user gives 400 `username exists`, and a body that fails to parse gives 500. Only a 201 writes, and no answer other than 201, 400 or 500 occurs |
| Lambdas.Get | packages/rest-api-serverless/src/lambdas/users-get.ts:7-26 | No path parameter gives 400. 200 with the stored user comes iff the username is given, no SDK failure occurs and the user exists. A missing user gives 404, and an SDK failure gives 500; no other status occurs |
| Lambdas.Update | packages/rest-api-serverless/src/lambdas/users-update.ts:7-30 | The path parameter is checked before the body. 200 `user updated` comes iff the body parses to a non-empty patch, no SDK failure occurs and the user exists, and then only that item is patched. A missing user gives 404; an empty patch gives 500 with DynamoDB's validation message; only a 200 writes, and no answer other than 200, 400, 404 or 500 occurs |
| ServerlessApi.Serve | packages/rest-api-serverless/infra/api/users.ts:40-112 | The composed API keeps `Profiles`. A refused request never writes, and GET never writes. The answer is 403 iff the method needs a key that was not supplied |
| ServerlessApi.EmptyPatchIsServerError | packages/rest-api-serverless/src/lambdas/users-update.ts:16-22 | A PATCH with `{}` and a valid key passes the gateway, yet the store's `SET ` expression is rejected, so the client gets 500 `cannot update user. ValidationException: …` with the service's message (the name alone if that message is empty), and nothing is written |
| ServerlessApiSpec.CreateTwice | packages/rest-api-serverless/integration/specs/users.spec.ts:88-132 | With a valid key, whether or not a key secret is configured, creating a new user gives 201 `user created`; creating it again gives 400 `username exists` and leaves the table unchanged |
| ServerlessApiSpec.PatchMissing | packages/rest-api-serverless/integration/specs/users.spec.ts:144-155 | With a valid key, a PATCH of `address: Mars` for a username that is not stored gives 404 `username not found` and leaves the table unchanged |
| ServerlessApiSpec.PatchThenGet | packages/rest-api-serverless/integration/specs/users.spec.ts:157-206 | With a valid key, whether or not a key secret is configured: after the create, a PATCH with `address: Mars` gives 200 `user updated`, GET returns the user with that address, and GET of `non-existent` gives 404 |
| ServerlessApiSpec.KeyRequired | packages/rest-api-serverless/integration/specs/users.spec.ts:12-23 | Without a key, POST and PATCH are answered 403 when a key is configured; GET is never 403 |
| Joi.ValueViolations | packages/rest-api-ecs/src/routes/users.ts:14-19 | A present value has no violation iff it is a non-empty string passing every rule, with `min`/`max` counting UTF-16 code units as JavaScript's `length` does; violations name the key |
| Strings.Utf16Length | packages/rest-api-ecs/src/routes/users.ts:15-18 | JavaScript's string length lies between the number of characters and twice that, and equals the number of characters iff no character lies beyond the Basic Multilingual Plane |
| Strings.AllAstral | packages/rest-api-ecs/src/routes/users.ts:16 | Text made only of characters beyond the Basic Multilingual Plane has twice as many UTF-16 units as characters |
| Joi.ValidateEmpty | packages/rest-api-ecs/src/routes/users.ts:13-20 | Joi validation reports nothing iff every schema key accepts its member (present when required) and the body has no member outside the schema |
| Joi.RequiredInSchemaOrder | packages/rest-api-ecs/integration/users.spec.ts:10-18 | The `is required` reports are exactly the missing required keys, in schema order |
| Joi.UnknownRefusedByName | packages/rest-api-ecs/integration/users.spec.ts:36-44 | `"k" is not allowed` is reported iff `k` is a body member that the schema does not declare |
| EcsRoutes.CreateBodyAccepted | packages/rest-api-ecs/src/routes/users.ts:14-19 | The POST schema accepts a body iff it reads as a user whose username is 4-10 alphanumerics, `fullName` is 1-50 UTF-16 units long, `email` is an email, and any `address` is 1-200 UTF-16 units long |
| EcsRoutes.UpdateBodyAccepted | packages/rest-api-ecs/src/routes/users.ts:46-50 | The PATCH schema accepts a body iff it reads as a patch whose `fullName` has at most 50 UTF-16 units, whose `email` is an email and whose `address` has at most 200, none of them empty |
| EcsRoutes.ParamsAccepted | packages/rest-api-ecs/src/routes/users.ts:32 | The path-parameter schema accepts a username iff it is non-empty |
| EcsRoutes.PostUsers | packages/rest-api-ecs/src/routes/users.ts:11-29 | 400 with Joi's text iff the body is invalid, and then nothing is written. A valid body without SDK failure gives 201 and stores the user, overwriting any old one. A failure gives 500. `Profiles` is preserved |
| EcsRoutes.GetUsers | packages/rest-api-ecs/src/routes/users.ts:31-39 | Get never writes. Without SDK failure it gives 200 with the stored user iff the user exists, else 404 `username u not found`; a failure gives 501 |
| EcsRoutes.PatchUsers | packages/rest-api-ecs/src/routes/users.ts:41-60 | Params are validated, then the body. 200 comes iff both are valid, the body is non-empty, no SDK failure occurs and the user exists, and then exactly that item is patched. A missing user gives 501 `{error: 'username not found'}`; an empty body gives 501 with DynamoDB's validation message. `Profiles` is preserved |
| EcsRoutesSpec.MissingFieldsReported | packages/rest-api-ecs/integration/users.spec.ts:10-18 | POST `{username}` gives 400 `Error validating request body. "fullName" is required. "email" is required.` |
| EcsRoutesSpec.UnknownMemberReported | packages/rest-api-ecs/integration/users.spec.ts:36-44 | POST with an extra `foo` member gives 400 `Error validating request body. "foo" is not allowed.` |
| EcsRoutesSpec.CreatePatchGet | packages/rest-api-ecs/integration/users.spec.ts:47-126 | Create gives 201; a PATCH of `address: Mars` gives 200; GET then returns the user with that address |
| EcsRoutesSpec.WideFullNameRefused | packages/rest-api-ecs/src/routes/users.ts:16-47 | A `fullName` of 26 emoji has 26 characters but 52 UTF-16 units, so both the POST and the PATCH schema refuse it with 400 and nothing is written |
| EcsRoutesSpec.MissingUserAnswers | packages/rest-api-ecs/integration/users.spec.ts:73-114 | For a missing user, PATCH gives 501 `{error: 'username not found'}` and GET gives 404 `username non-existent not found` |
| Validators.JoiCreateImpliesGateway | packages/rest-api-serverless/infra/api/users.ts:116-134 | Every body the ECS Joi create schema accepts also passes the serverless create model |
| Validators.JoiUpdateImpliesGateway | packages/rest-api-serverless/infra/api/users.ts:136-150 | Every body the ECS Joi update schema accepts also passes the serverless update model |
| Validators.ShortUsernameOnlyJoiRefuses | packages/rest-api-ecs/src/routes/users.ts:15 | The username `abc` passes the gateway model but fails Joi's minimum length of 4 |
| Validators.BothAcceptEmptyUpdate | packages/rest-api-ecs/src/routes/users.ts:46-50 | Both validators accept the empty update body `{}` |

## Left out

- The AWS SDK client, the network and the service are reduced to the table map. Any failure they may report is an `injected` parameter. Requests are sequential; concurrent requests and DynamoDB's isolation are not modelled.
- `JSON.parse` is a parameter of the handlers that yields a value or a syntax error. `JSON.stringify` of responses and of caught errors is abstract: each SDK error carries its own serialised text (`json`), with whatever `$fault` and `$metadata` fields the client puts there, and the model only passes it on.
- The message of DynamoDB's `ValidationException` for an empty `SET` is the service's own text. It is a parameter (`ValidationText`) of the update path, and the model states where that text ends up: in `cannot update user. ValidationException: …` in the serverless store and as the thrown message in the ECS store.
- Dynamo.Put: the item must carry both key attributes. Every item the stores write is built by `ItemOf`, which always does, so the SDK's missing-key error is not modelled.
- Joi's email syntax is a parameter `isEmail`; the model does not say which strings are emails.
- Joi message texts are modelled for `is required`, `is not allowed`, `must be a string`, `is not allowed to be empty`, length and `alphanum`. Only the required and not-allowed ones appear in the tested outputs.
- `address: Joi.string().max(200).empty()` is read as an optional key: `.empty()` without an argument changes nothing.
- Gateway.Admit: the wording and order of API Gateway's validation messages (`Invalid request body`, the JSON-schema error list) are not modelled, only which requests are refused and for what reason.
- Gateway.Admit: the body it receives is already a parsed JSON object. Both request models declare `type: object` with `validateRequestBody: true`, so API Gateway itself answers a request whose body is absent, is not JSON, or is JSON but not an object; that answer is not modelled.
- ServerlessApi.Serve: for the same reason its `Request.body` is a parsed JSON object, and a request with an absent, unparsable or non-object body cannot be expressed.
- The API Gateway and CDK infrastructure beyond the users resource is not modelled: WAF, stages, the health endpoints, the ECS cluster, the Glue job and the server bootstrap.
- `console.info` logging is left out; it has no effect on answers.
- Lambdas.Create: a body that parses but lacks the `User` shape is not modelled. The gateway model excludes such bodies, and `Gateway.CreateAcceptsUsers` proves that exclusion. The same holds for Lambdas.Update.
- Lambdas.Get: the table invariant `Profiles` (every item has `fullName` and `email`) is required. The TypeScript code reads those attributes without checking them, and every write in the model preserves the invariant.
- EcsRoutes.GetUsers: the same `Profiles` requirement holds, for the same reason.
- ServerlessStore.GetUser: the same `Profiles` requirement holds, for the same reason.
- ServerlessApi.Serve: the same `Profiles` requirement holds (`requires Profiles(t)`), because it dispatches GET to `Lambdas.Get`.
- EcsStore.GetUser: the same `Profiles` requirement holds, for the same reason.
- Express's routing of an empty path segment is not modelled. A username reaching the route is a string, and Joi refuses `''`.
- The serialisation of a rethrown non-service error in the ECS routes' `{error}` body is abstract (`ErrorJson(Rethrown(e))`).
- `packages/rest-api-ecs/src/common/api-error.ts` is the ECS copy of `APIError`. The ECS store never throws it, so it is not part of this model.
- The ECS unit test `user-store-dynamodb.spec.ts` imports `APIError` and expects the serverless store's behaviour. `EcsStoreSpec` states both stores' answers side by side instead of asserting the test's expectations against the ECS store. For the two "other error" cases (lines 59-71 and 161-172) the test expects `… Error: some other error`, but its mock rejects with a bare string, so the serverless store's message has no `Error: ` in it and the ECS store rethrows the string: neither store meets those two expectations, and `EcsStoreSpec.OtherFailureAsTested` states what each one does.
- `packages/rest-api-ecs/integration/specs/users.spec.ts` expects serverless-style `{message}` bodies, which the ECS routes never send. The model follows the routes and `packages/rest-api-ecs/integration/users.spec.ts`.
- The integration tests' setup helpers (DynamoDB cleanup, retries, random usernames) are not modelled.
- The two middle cases of the ECS invalid-payload test (only `email`, or only `fullName`, missing) are covered by `Joi.RequiredInSchemaOrder` in general and not restated as literal texts.

=== FILE: api.dfy ===
/** `APIError` and the `APIGatewayResponse` constructor of the serverless package
    (packages/rest-api-serverless/src/common/api.ts). */
module Api {
  import opened Wrappers
  import opened Users

  const OK := 200
  const CREATED := 201
  const BAD_REQUEST := 400
  const FORBIDDEN := 403
  const NOT_FOUND := 404
  const INTERNAL_SERVER_ERROR := 500
  const NOT_IMPLEMENTED := 501

  /** An error that knows the HTTP status it should be answered with. */
  datatype APIError = APIError(message: string, httpStatus: int)
  {
    function Name(): string { "APIError" }
  }

  /** The body value a handler hands to `APIGatewayResponse`, before serialisation. */
  datatype Payload =
    | MessageBody(message: string)   // `{ message: '...' }`
    | ThrownBody(thrown: string)     // `{ message: error }` for something that is not an APIError
    | UserBody(user: User)           // the user itself

  /** A Lambda proxy result: status, body and the CORS origin header. */
  datatype Response = Response(statusCode: int, body: Payload, allowOrigin: string)

  /** `event.headers.origin || '*'`: the request's origin when it is present and non-empty. */
  function AllowOrigin(origin: Option<string>): (r: string)
    ensures r != ""
  {
    match origin
    case Some(o) => if o != "" then o else "*"
    case None => "*"
  }

  /** The response for a status and body: status and body are kept as given. */
  function APIGatewayResponse(statusCode: int, body: Payload, origin: Option<string>): Response
  {
    Response(statusCode, body, AllowOrigin(origin))
  }
}

=== FILE: bodies.dfy ===
/** Reading parsed request bodies as the values the handlers pass to the store: a create body as
    a `User`, an update body as a `Patch`. The handlers themselves only cast; these functions say
    which bodies the cast is faithful for. */
module Bodies {
  import opened Wrappers
  import opened Users
  import Json

  const UserKeys: set<string> := {"username", "fullName", "email", "address"}
  const PatchKeys: set<string> := {"fullName", "email", "address"}

  /** The user a create body describes: string `username`, `fullName` and `email`, an optional
      string `address`, and no other member. */
  function UserOf(body: Json.Object): Option<User>
  {
    if Json.GetString(body, "username").Some? && Json.GetString(body, "fullName").Some?
       && Json.GetString(body, "email").Some?
       && (Json.Get(body, "address").None? || Json.GetString(body, "address").Some?)
       && Json.Keys(body) <= UserKeys
    then Some(User(Json.GetString(body, "username").value, Json.GetString(body, "fullName").value,
                   Json.GetString(body, "email").value, Json.GetString(body, "address")))
    else None
  }

  /** The create body a client sends for `u`: the three required members, then `address` when
      the user has one. */
  function BodyOf(u: User): Json.Object
  {
    [("username", Json.Str(u.username)), ("fullName", Json.Str(u.fullName)), ("email", Json.Str(u.email))]
    + (if u.address.Some? then [("address", Json.Str(u.address.value))] else [])
  }

  /** Reading back the body written for a user gives that user. */
  lemma UserOfBodyOf(u: User)
    ensures UserOf(BodyOf(u)) == Some(u)
  {
    var body := BodyOf(u);
    Json.GetAt(body, 0);
    Json.GetAt(body, 1);
    Json.GetAt(body, 2);
    if u.address.Some? {
      Json.GetAt(body, 3);
      assert Json.Keys(body) == UserKeys;
    } else {
      assert Json.Keys(body) == {"username", "fullName", "email"};
    }
  }

  /** The field a patch key names. */
  function FieldOf(key: string): (r: Option<Field>)
    ensures r.Some? <==> key in PatchKeys
    ensures r.Some? ==> FieldName(r.value) == key
  {
    if key == "fullName" then Some(FullName)
    else if key == "email" then Some(Email)
    else if key == "address" then Some(Address)
    else None
  }

  function EntriesOf(members: seq<(string, Json.Value)>): Option<seq<Entry>>
  {
    if |members| == 0 then Some([])
    else match (FieldOf(members[0].0), members[0].1)
      case (Some(f), Str(s)) =>
        (match EntriesOf(members[1..])
         case Some(rest) => Some([Entry(f, s)] + rest)
         case None => None)
      case _ => None
  }

  lemma {:induction false} EntriesOfContent(members: seq<(string, Json.Value)>)
    requires EntriesOf(members).Some?
    ensures |EntriesOf(members).value| == |members|
    ensures forall i :: 0 <= i < |members| ==>
      members[i].1 == Json.Str(EntriesOf(members).value[i].value) && FieldName(EntriesOf(members).value[i].field) == members[i].0
  {
    if |members| > 0 {
      EntriesOfContent(members[1..]);
      assert forall i :: 0 < i < |members| ==> members[1..][i - 1] == members[i];
    }
  }

  lemma {:induction false} EntriesOfSome(members: seq<(string, Json.Value)>)
    requires forall i :: 0 <= i < |members| ==> members[i].0 in PatchKeys && members[i].1.Str?
    ensures EntriesOf(members).Some?
  {
    if |members| > 0 {
      assert forall i :: 0 < i < |members| ==> members[1..][i - 1] == members[i];
      EntriesOfSome(members[1..]);
    }
  }

  /** The patch an update body describes: each member, in body order, is one of `fullName`,
      `email`, `address` with a string value. */
  function PatchOf(body: Json.Object): (r: Option<Patch>)
    ensures r.Some? <==> forall i :: 0 <= i < |body| ==> body[i].0 in PatchKeys && body[i].1.Str?
    ensures r.Some? ==> |r.value| == |body| && forall i :: 0 <= i < |body| ==>
      FieldName(r.value[i].field) == body[i].0 && body[i].1 == Json.Str(r.value[i].value)
  {
    if !(forall i :: 0 <= i < |body| ==> body[i].0 in PatchKeys && body[i].1.Str?) then None
    else
      EntriesOfSome(body);
      var es := EntriesOf(body).value;
      EntriesOfContent(body);
      assert DistinctFields(es) by {
        forall i, j | 0 <= i < j < |es| ensures es[i].field != es[j].field {
          assert body[i].0 != body[j].0;
        }
      }
      var p: Patch := es;
      Some(p)
  }
}

=== FILE: dynamo.dfy ===
/** The key-value table both stores talk to, reduced to what the stores rely on: a map from a
    composite key to an attribute map, with atomic conditional put and update. A call may also
    fail for reasons outside the model (network, throttling, permissions, a mocked client); the
    caller passes such a failure in as `injected`. */
module Dynamo {
  import opened Wrappers
  import opened UpdateExpression

  datatype Key = Key(pk: string, sk: string)

  type Attrs = map<string, string>

  type Table = map<Key, Attrs>

  const PartitionKey := "PK"
  const SortKey := "SK"

  /** What a rejected request carries. `ConditionalCheckFailed` and `ServiceError` are service
      exceptions (`DynamoDBServiceException`); `ClientError` is anything else the client throws.
      Every error comes with the text the service or the client gave it and with its
      `JSON.stringify` serialisation (which for a service exception also holds the request
      metadata); the model takes both as given. */
  datatype SdkError =
    | ConditionalCheckFailed(message: string, json: string)
    | ServiceError(name: string, message: string, json: string)
    | ClientError(shown: string, json: string)
  {
    predicate IsServiceException()
    {
      ConditionalCheckFailed? || ServiceError?
    }

    function Name(): string
      requires IsServiceException()
    {
      if ConditionalCheckFailed? then "ConditionalCheckFailedException" else name
    }

    /** `${error}`: an exception prints as `Error.prototype.toString` prints it. */
    function Shown(): string
    {
      if ClientError? then shown else Printed(Name(), message)
    }
  }

  /** `Error.prototype.toString`: the name, followed by `: ` and the message when there is one. */
  function Printed(name: string, message: string): string
  {
    if message == "" then name else name + ": " + message
  }

  /** Why the table refuses a request: its condition does not hold, the request is malformed (a
      syntax error in the update expression, an unused placeholder, two assignments to one
      attribute, an assignment to a key attribute), or the client reported a failure. */
  datatype Refusal = ConditionFailed | Malformed | Reported(error: SdkError)
  {
    /** What `error instanceof ConditionalCheckFailedException` sees. */
    predicate IsConditionFailure()
    {
      ConditionFailed? || (Reported? && error.ConditionalCheckFailed?)
    }
  }

  /** The `ValidationException` the table raises for a malformed request. Its message and its
      serialisation are the service's own text, which the model takes as given. */
  datatype ValidationText = ValidationText(message: string, json: string)
  {
    function Error(): SdkError
    {
      ServiceError("ValidationException", message, json)
    }
  }

  /** How the validation prints through `${error}`. */
  lemma ValidationShown(r: ValidationText)
    ensures r.Error().Shown() == Printed("ValidationException", r.message)
    ensures r.message != "" ==> r.Error().Shown() == "ValidationException: " + r.message
  {
    assert "ValidationException" + ": " == "ValidationException: ";
  }

  /** The two existence conditions the stores use. */
  datatype Condition = KeyAbsent | KeyPresent

  function ConditionExpression(c: Condition): string
  {
    match c
    case KeyAbsent => "attribute_not_exists(PK) and attribute_not_exists(SK)"
    case KeyPresent => "attribute_exists(PK) and attribute_exists(SK)"
  }

  /** Whether a request's condition lets it through for the item at `k`. Every stored item carries
      its key attributes, so `attribute_exists(PK)` holds exactly when there is an item at `k`. */
  predicate Admits(c: Option<Condition>, t: Table, k: Key)
  {
    match c
    case None => true
    case Some(KeyAbsent) => k !in t
    case Some(KeyPresent) => k in t
  }

  datatype PutRequest = PutRequest(item: Attrs, condition: Option<Condition>)

  datatype UpdateRequest = UpdateRequest(key: Key, condition: Option<Condition>, update: Update)

  /** The key a put item names through its `PK` and `SK` attributes. */
  function ItemKey(item: Attrs): Option<Key>
  {
    if PartitionKey in item && SortKey in item then Some(Key(item[PartitionKey], item[SortKey])) else None
  }

  /** `GetCommand`: the item at `key`, or nothing. */
  function Get(t: Table, key: Key, injected: Option<SdkError>): Result<Option<Attrs>, SdkError>
  {
    if injected.Some? then Failure(injected.value)
    else if key in t then Success(Some(t[key]))
    else Success(None)
  }

  /** `PutCommand`: replaces the whole item at its key when the condition admits it. */
  function Put(t: Table, req: PutRequest, injected: Option<SdkError>): (r: Result<Table, Refusal>)
    requires ItemKey(req.item).Some?
    ensures r.Failure? ==> !r.error.Malformed?
    ensures r.Failure? && injected.None? ==> r.error.ConditionFailed? && !Admits(req.condition, t, ItemKey(req.item).value)
  {
    var k := ItemKey(req.item).value;
    if injected.Some? then Failure(Reported(injected.value))
    else if Admits(req.condition, t, k) then Success(t[k := req.item])
    else Failure(ConditionFailed)
  }

  /** Resolves each clause's placeholders through the names and values maps. */
  function Resolve(clauses: seq<Clause>, names: map<string, string>, values: map<string, string>): Option<seq<(string, string)>>
  {
    if |clauses| == 0 then Some([])
    else if clauses[0].name in names && clauses[0].value in values then
      match Resolve(clauses[1..], names, values)
      case None => None
      case Some(rest) => Some([(names[clauses[0].name], values[clauses[0].value])] + rest)
    else None
  }

  /** The attribute assignments an update stands for, or `None` when the table rejects it. */
  function Interpret(u: Update): Option<seq<(string, string)>>
  {
    match Parse(u.expression)
    case None => None
    case Some(clauses) =>
      if u.names.Keys != (set c | c in clauses :: c.name) || u.values.Keys != (set c | c in clauses :: c.value) then None
      else match Resolve(clauses, u.names, u.values)
        case None => None
        case Some(sets) =>
          if DistinctKeys(sets) && (forall i :: 0 <= i < |sets| ==> sets[i].0 != PartitionKey && sets[i].0 != SortKey)
          then Some(sets) else None
  }

  /** Placeholders that all resolve give the assignments they resolve to, in clause order. */
  lemma {:induction false} ResolveAll(clauses: seq<Clause>, names: map<string, string>, values: map<string, string>, sets: seq<(string, string)>)
    requires |clauses| == |sets|
    requires forall i :: 0 <= i < |clauses| ==>
      clauses[i].name in names && clauses[i].value in values && sets[i] == (names[clauses[i].name], values[clauses[i].value])
    ensures Resolve(clauses, names, values) == Some(sets)
    decreases |clauses|
  {
    if |clauses| > 0 {
      assert forall i :: 0 <= i < |clauses| - 1 ==> clauses[1..][i] == clauses[i + 1] && sets[1..][i] == sets[i + 1];
      ResolveAll(clauses[1..], names, values, sets[1..]);
      assert sets == [sets[0]] + sets[1..];
    }
  }

  /** Performs the assignments in order. */
  function ApplySets(item: Attrs, sets: seq<(string, string)>): Attrs
    decreases |sets|
  {
    if |sets| == 0 then item else ApplySets(item[sets[0].0 := sets[0].1], sets[1..])
  }

  /** `UpdateCommand`: the request is validated first, then its condition is checked, then the
      assignments are applied to the item at the key (to a fresh item holding only the key when
      there is none and no condition forbids it). */
  function UpdateItem(t: Table, req: UpdateRequest, injected: Option<SdkError>): Result<Table, Refusal>
  {
    if injected.Some? then Failure(Reported(injected.value))
    else match Interpret(req.update)
      case None => Failure(Malformed)
      case Some(sets) =>
        if !Admits(req.condition, t, req.key) then Failure(ConditionFailed)
        else
          var base := if req.key in t then t[req.key] else map[PartitionKey := req.key.pk, SortKey := req.key.sk];
          Success(t[req.key := ApplySets(base, sets)])
  }

  /** With distinct targets, applying the assignments leaves every other attribute alone and gives
      each target its assigned value. */
  lemma {:induction false} ApplySetsContent(item: Attrs, sets: seq<(string, string)>)
    requires DistinctKeys(sets)
    ensures ApplySets(item, sets).Keys == item.Keys + (set i | 0 <= i < |sets| :: sets[i].0)
    ensures forall i :: 0 <= i < |sets| ==> ApplySets(item, sets)[sets[i].0] == sets[i].1
    ensures forall a :: a in item && (forall i :: 0 <= i < |sets| ==> sets[i].0 != a) ==> ApplySets(item, sets)[a] == item[a]
    decreases |sets|
  {
    if |sets| > 0 {
      var rest := sets[1..];
      assert forall i :: 0 <= i < |rest| ==> rest[i] == sets[i + 1];
      ApplySetsContent(item[sets[0].0 := sets[0].1], rest);
      assert (set i | 0 <= i < |sets| :: sets[i].0) == {sets[0].0} + (set i | 0 <= i < |rest| :: rest[i].0) by {
        forall i | 0 < i < |sets|
          ensures sets[i].0 in (set j | 0 <= j < |rest| :: rest[j].0)
        {
          assert rest[i - 1].0 == sets[i].0;
        }
      }
    }
  }

  /** The placeholders of the built clauses resolve to the entries they were built from. */
  lemma ResolveBuild(entries: seq<(string, string)>)
    requires DistinctKeys(entries)
    ensures Resolve(ClausesOf(entries), Names(entries), Values(entries)) == Some(entries)
  {
    NamesContent(entries);
    ValuesContent(entries);
    ResolveAll(ClausesOf(entries), Names(entries), Values(entries), entries);
  }

  /** The table reads a built update as exactly the entries it was built from; the update built
      from no entries is rejected. */
  lemma InterpretBuild(entries: seq<(string, string)>)
    requires AllIdentifiers(entries) && DistinctKeys(entries)
    requires forall i :: 0 <= i < |entries| ==> entries[i].0 != PartitionKey && entries[i].0 != SortKey
    ensures |entries| == 0 ==> Interpret(Build(entries)).None?
    ensures |entries| > 0 ==> Interpret(Build(entries)) == Some(entries)
  {
    ParseBuild(entries);
    if |entries| > 0 {
      var u := Build(entries);
      assert Parse(u.expression) == Some(ClausesOf(entries));
      PlaceholdersUsed(entries);
      ResolveBuild(entries);
    }
  }

  /** A list of assignments with distinct targets, as a map from target to value. */
  function AsMap(sets: seq<(string, string)>): map<string, string>
    requires DistinctKeys(sets)
  {
    map i | 0 <= i < |sets| :: sets[i].0 := sets[i].1
  }

  /** Applying assignments with distinct targets one by one is the same as overlaying them at once. */
  lemma {:induction false} ApplySetsOverlay(item: Attrs, sets: seq<(string, string)>)
    requires DistinctKeys(sets)
    ensures ApplySets(item, sets) == item + AsMap(sets)
  {
    ApplySetsContent(item, sets);
    var a := ApplySets(item, sets);
    var m := AsMap(sets);
    assert m.Keys == set i | 0 <= i < |sets| :: sets[i].0;
    forall k | k in a ensures a[k] == (item + m)[k] {
      if i :| 0 <= i < |sets| && sets[i].0 == k {
        assert m[k] == sets[i].1;
      }
    }
  }
}

=== FILE: ecs_routes.dfy ===
/** The Express router of the container service (packages/rest-api-ecs/src/routes/users.ts):
    Joi validation of path parameters and bodies, then the store call, with each outcome mapped to
    a status code and body. */
module EcsRoutes {
  import opened Wrappers
  import opened Strings
  import opened Users
  import opened Dynamo
  import opened Records
  import opened Bodies
  import Json
  import Joi
  import EcsStore

  /** `POST /users` body: username 4 to 10 alphanumerics, fullName at most 50, email, optional
      address at most 200; all strings. */
  const CreateSchema: Joi.Schema := [
    Joi.KeySchema("username", true, [Joi.Min(4), Joi.Max(10), Joi.Alphanum]),
    Joi.KeySchema("fullName", true, [Joi.Max(50)]),
    Joi.KeySchema("email", true, [Joi.EmailAddress]),
    Joi.KeySchema("address", false, [Joi.Max(200)])
  ]

  /** `PATCH /users/:username` body: the same three profile fields, all optional. */
  const UpdateSchema: Joi.Schema := [
    Joi.KeySchema("fullName", false, [Joi.Max(50)]),
    Joi.KeySchema("email", false, [Joi.EmailAddress]),
    Joi.KeySchema("address", false, [Joi.Max(200)])
  ]

  /** Path parameters of `GET` and `PATCH`: a required string username. */
  const ParamsSchema: Joi.Schema := [Joi.KeySchema("username", true, [])]

  datatype HttpBody =
    | NoBody                                // `res.send()`
    | Text(text: string)                    // the validator's plain-text rejection
    | UserJson(user: User)                  // `res.json(user)`
    | ErrorJson(error: EcsStore.Thrown)     // `res.json({ error })`

  datatype HttpResponse = HttpResponse(status: int, body: HttpBody)

  /** A handled request: the response and the table afterwards. */
  datatype Outcome = Outcome(response: HttpResponse, table: Table)

  function Params(username: string): Json.Object
  {
    [("username", Json.Str(username))]
  }

  /** What a validator middleware does with a container: nothing when it passes, otherwise a 400
      with the Joi report. */
  function Check(container: Joi.Container, schema: Joi.Schema, value: Json.Object, isEmail: string -> bool): Option<HttpResponse>
  {
    var vs := Joi.Validate(schema, value, isEmail);
    if |vs| == 0 then None else Some(HttpResponse(400, Text(Joi.ErrorText(container, vs))))
  }

  // ---------------------------------------------------------------------------------------------
  // Which bodies the schemas accept

  /** A create body the schema accepts, stated on the user it describes. */
  predicate ValidCreateBody(body: Json.Object, isEmail: string -> bool)
  {
    && UserOf(body).Some?
    && var u := UserOf(body).value;
    && 4 <= Utf16Length(u.username) <= 10 && IsAlnum(u.username)
    && u.fullName != "" && Utf16Length(u.fullName) <= 50
    && u.email != "" && isEmail(u.email)
    && (u.address.Some? ==> u.address.value != "" && Utf16Length(u.address.value) <= 200)
  }

  /** A body member that meets the update schema's rule for its key. */
  predicate ValidMember(m: (string, Json.Value), isEmail: string -> bool)
  {
    && m.0 in PatchKeys && m.1.Str? && m.1.s != ""
    && (m.0 == "fullName" ==> Utf16Length(m.1.s) <= 50)
    && (m.0 == "email" ==> isEmail(m.1.s))
    && (m.0 == "address" ==> Utf16Length(m.1.s) <= 200)
  }

  predicate ValidEntry(e: Entry, isEmail: string -> bool)
  {
    && e.value != ""
    && (e.field == FullName ==> Utf16Length(e.value) <= 50)
    && (e.field == Email ==> isEmail(e.value))
    && (e.field == Address ==> Utf16Length(e.value) <= 200)
  }

  /** An update body the schema accepts, stated on the patch it describes. */
  predicate ValidUpdateBody(body: Json.Object, isEmail: string -> bool)
  {
    && PatchOf(body).Some?
    && forall i :: 0 <= i < |PatchOf(body).value| ==> ValidEntry(PatchOf(body).value[i], isEmail)
  }

  lemma CreateSchemaKeys()
    ensures Joi.SchemaKeys(CreateSchema) == UserKeys
  {
    assert CreateSchema[0].key == "username" && CreateSchema[1].key == "fullName";
    assert CreateSchema[2].key == "email" && CreateSchema[3].key == "address";
  }

  lemma UpdateSchemaKeys()
    ensures Joi.SchemaKeys(UpdateSchema) == PatchKeys
  {
    assert UpdateSchema[0].key == "fullName" && UpdateSchema[1].key == "email" && UpdateSchema[2].key == "address";
  }

  lemma UsernameRules(s: string, isEmail: string -> bool)
    ensures Joi.AllPass(CreateSchema[0].rules, s, isEmail) <==> 4 <= Utf16Length(s) <= 10 && IsAlnum(s)
  {
    var rules := CreateSchema[0].rules;
    assert rules == [Joi.Min(4), Joi.Max(10), Joi.Alphanum];
    assert rules[1..] == [Joi.Max(10), Joi.Alphanum] && rules[1..][1..] == [Joi.Alphanum];
    assert Joi.AllPass(rules[1..][1..], s, isEmail) <==> IsAlnum(s) by {
      assert rules[1..][1..][1..] == [];
    }
  }

  lemma MaxRules(rules: seq<Joi.Rule>, n: nat, s: string, isEmail: string -> bool)
    requires rules == [Joi.Max(n)]
    ensures Joi.AllPass(rules, s, isEmail) <==> Utf16Length(s) <= n
  {
    assert rules[1..] == [];
  }

  lemma EmailRules(rules: seq<Joi.Rule>, s: string, isEmail: string -> bool)
    requires rules == [Joi.EmailAddress]
    ensures Joi.AllPass(rules, s, isEmail) <==> isEmail(s)
  {
    assert rules[1..] == [];
  }

  /** A required key accepts exactly a non-empty string member meeting the key's rules. */
  lemma RequiredKey(ks: Joi.KeySchema, body: Json.Object, isEmail: string -> bool)
    requires ks.required
    ensures Joi.KeyAccepts(ks, body, isEmail) <==>
      Json.GetString(body, ks.key).Some? && Json.GetString(body, ks.key).value != ""
      && Joi.AllPass(ks.rules, Json.GetString(body, ks.key).value, isEmail)
  {
  }

  /** An optional key accepts an absent member, or a non-empty string member meeting its rules. */
  lemma OptionalKey(ks: Joi.KeySchema, body: Json.Object, isEmail: string -> bool)
    requires !ks.required
    ensures Joi.KeyAccepts(ks, body, isEmail) <==>
      Json.Get(body, ks.key).None? ||
      (Json.GetString(body, ks.key).Some? && Json.GetString(body, ks.key).value != ""
       && Joi.AllPass(ks.rules, Json.GetString(body, ks.key).value, isEmail))
  {
  }

  predicate UsernameAccepted(body: Json.Object)
  {
    Json.GetString(body, "username").Some? && 4 <= Utf16Length(Json.GetString(body, "username").value) <= 10
    && IsAlnum(Json.GetString(body, "username").value)
  }

  /** A string member `key`, present when `required`, non-empty and at most `n` long. */
  predicate BoundedAccepted(body: Json.Object, key: string, required: bool, n: nat)
  {
    if Json.Get(body, key).None? then !required
    else Json.GetString(body, key).Some? && Json.GetString(body, key).value != "" && Utf16Length(Json.GetString(body, key).value) <= n
  }

  predicate EmailAccepted(body: Json.Object, required: bool, isEmail: string -> bool)
  {
    if Json.Get(body, "email").None? then !required
    else
      Json.GetString(body, "email").Some? && Json.GetString(body, "email").value != ""
      && isEmail(Json.GetString(body, "email").value)
  }

  lemma BoundedKey(ks: Joi.KeySchema, body: Json.Object, isEmail: string -> bool, n: nat)
    requires ks.rules == [Joi.Max(n)]
    ensures Joi.KeyAccepts(ks, body, isEmail) <==> BoundedAccepted(body, ks.key, ks.required, n)
  {
    if Json.GetString(body, ks.key).Some? {
      MaxRules(ks.rules, n, Json.GetString(body, ks.key).value, isEmail);
    }
  }

  lemma EmailKey(ks: Joi.KeySchema, body: Json.Object, isEmail: string -> bool)
    requires ks.key == "email" && ks.rules == [Joi.EmailAddress]
    ensures Joi.KeyAccepts(ks, body, isEmail) <==> EmailAccepted(body, ks.required, isEmail)
  {
    if Json.GetString(body, ks.key).Some? {
      EmailRules(ks.rules, Json.GetString(body, ks.key).value, isEmail);
    }
  }

  lemma UsernameKey(body: Json.Object, isEmail: string -> bool)
    ensures Joi.KeyAccepts(CreateSchema[0], body, isEmail) <==> UsernameAccepted(body)
  {
    RequiredKey(CreateSchema[0], body, isEmail);
    if Json.GetString(body, "username").Some? {
      UsernameRules(Json.GetString(body, "username").value, isEmail);
    }
  }

  /** The four keys of the create schema, stated on the body's string members. */
  lemma CreateKeysAccepted(body: Json.Object, isEmail: string -> bool)
    ensures (forall i :: 0 <= i < |CreateSchema| ==> Joi.KeyAccepts(CreateSchema[i], body, isEmail)) <==>
      UsernameAccepted(body) && BoundedAccepted(body, "fullName", true, 50) && EmailAccepted(body, true, isEmail)
      && BoundedAccepted(body, "address", false, 200)
  {
    UsernameKey(body, isEmail);
    BoundedKey(CreateSchema[1], body, isEmail, 50);
    EmailKey(CreateSchema[2], body, isEmail);
    BoundedKey(CreateSchema[3], body, isEmail, 200);
    assert |CreateSchema| == 4;
  }

  /** The create schema accepts a body exactly when it describes a user whose fields meet the
      declared rules. */
  lemma CreateBodyAccepted(body: Json.Object, isEmail: string -> bool)
    ensures |Joi.Validate(CreateSchema, body, isEmail)| == 0 <==> ValidCreateBody(body, isEmail)
  {
    Joi.ValidateEmpty(CreateSchema, body, isEmail);
    CreateSchemaKeys();
    CreateKeysAccepted(body, isEmail);
  }

  /** The three keys of the update schema, stated on the body's string members. */
  lemma UpdateKeys(body: Json.Object, isEmail: string -> bool)
    ensures (forall i :: 0 <= i < |UpdateSchema| ==> Joi.KeyAccepts(UpdateSchema[i], body, isEmail)) <==>
      BoundedAccepted(body, "fullName", false, 50) && EmailAccepted(body, false, isEmail)
      && BoundedAccepted(body, "address", false, 200)
  {
    BoundedKey(UpdateSchema[0], body, isEmail, 50);
    EmailKey(UpdateSchema[1], body, isEmail);
    BoundedKey(UpdateSchema[2], body, isEmail, 200);
    assert |UpdateSchema| == 3;
  }

  /** For a body of patch keys only, the per-key rules are the per-member rules. */
  lemma UpdateKeysAccepted(body: Json.Object, isEmail: string -> bool)
    requires Json.Keys(body) <= PatchKeys
    ensures (forall i :: 0 <= i < |UpdateSchema| ==> Joi.KeyAccepts(UpdateSchema[i], body, isEmail)) <==>
      forall i :: 0 <= i < |body| ==> ValidMember(body[i], isEmail)
  {
    UpdateKeys(body, isEmail);
    var perKey := BoundedAccepted(body, "fullName", false, 50) && EmailAccepted(body, false, isEmail)
      && BoundedAccepted(body, "address", false, 200);
    if forall i :: 0 <= i < |body| ==> ValidMember(body[i], isEmail) {
      forall k | k in PatchKeys && k in Json.Keys(body)
        ensures Json.GetString(body, k).Some? && ValidMember((k, Json.Get(body, k).value), isEmail)
      {
        var i :| 0 <= i < |body| && body[i].0 == k;
        Json.GetAt(body, i);
      }
      assert perKey;
    }
    if perKey {
      forall i | 0 <= i < |body| ensures ValidMember(body[i], isEmail) {
        assert body[i].0 in Json.Keys(body);
        Json.GetAt(body, i);
      }
    }
  }

  /** Per-member rules are the per-entry rules of the patch the body describes. */
  lemma MembersAsEntries(body: Json.Object, isEmail: string -> bool)
    ensures (forall i :: 0 <= i < |body| ==> ValidMember(body[i], isEmail)) <==> ValidUpdateBody(body, isEmail)
  {
    if forall i :: 0 <= i < |body| ==> ValidMember(body[i], isEmail) {
      var p := PatchOf(body).value;
      forall i | 0 <= i < |p| ensures ValidEntry(p[i], isEmail) {
        assert ValidMember(body[i], isEmail);
      }
    }
    if ValidUpdateBody(body, isEmail) {
      var p := PatchOf(body).value;
      forall i | 0 <= i < |body| ensures ValidMember(body[i], isEmail) {
        assert ValidEntry(p[i], isEmail);
      }
    }
  }

  /** The update schema accepts a body exactly when it describes a patch whose every entry meets
      its field's rules. */
  lemma UpdateBodyAccepted(body: Json.Object, isEmail: string -> bool)
    ensures |Joi.Validate(UpdateSchema, body, isEmail)| == 0 <==> ValidUpdateBody(body, isEmail)
  {
    Joi.ValidateEmpty(UpdateSchema, body, isEmail);
    UpdateSchemaKeys();
    MembersAsEntries(body, isEmail);
    if Json.Keys(body) <= PatchKeys {
      UpdateKeysAccepted(body, isEmail);
    } else {
      var k :| k in Json.Keys(body) && k !in PatchKeys;
      var i :| 0 <= i < |body| && body[i].0 == k;
      assert !ValidMember(body[i], isEmail);
    }
  }

  /** The path parameter passes exactly when it is not empty. */
  lemma ParamsAccepted(username: string, isEmail: string -> bool)
    ensures |Joi.Validate(ParamsSchema, Params(username), isEmail)| == 0 <==> username != ""
  {
    Joi.ValidateEmpty(ParamsSchema, Params(username), isEmail);
    assert Json.Keys(Params(username)) == {"username"};
    assert Joi.SchemaKeys(ParamsSchema) == {"username"} by {
      assert ParamsSchema[0].key == "username";
    }
    assert Json.Get(Params(username), "username") == Some(Json.Str(username));
  }

  // ---------------------------------------------------------------------------------------------
  // The three routes

  /** `POST /users`: a rejected body answers 400 with the Joi report and writes nothing; an
      accepted one is stored as its user, answering 201 with no body, or 500 with the thrown value. */
  function PostUsers(t: Table, body: Json.Object, isEmail: string -> bool, injected: Option<SdkError>): (r: Outcome)
    ensures r.response.status == 400 <==> !ValidCreateBody(body, isEmail)
    ensures r.response.status == 400 ==>
      r == Outcome(HttpResponse(400, Text(Joi.ErrorText(Joi.Body, Joi.Validate(CreateSchema, body, isEmail)))), t)
    ensures ValidCreateBody(body, isEmail) && injected.None? ==>
      var u := UserOf(body).value;
      r == Outcome(HttpResponse(201, NoBody), t[KeyOf(u.username) := ItemOf(u)])
    ensures ValidCreateBody(body, isEmail) && injected.Some? ==> r.response.status == 500 && r.table == t
    ensures injected.Some? && injected.value.ServiceError? && ValidCreateBody(body, isEmail) ==>
      r.response.body == ErrorJson(EcsStore.Text(injected.value.message))
    ensures Profiles(t) ==> Profiles(r.table)
  {
    CreateBodyAccepted(body, isEmail);
    match Check(Joi.Body, CreateSchema, body, isEmail)
    case Some(rejection) => Outcome(rejection, t)
    case None =>
      match EcsStore.CreateUser(t, UserOf(body).value, injected)
      case Success(t') => Outcome(HttpResponse(201, NoBody), t')
      case Failure(e) => Outcome(HttpResponse(500, ErrorJson(e)), t)
  }

  /** `GET /users/:username`: the stored user with 200, 404 with a message naming the username
      when there is none, 501 with the thrown value when the store fails. Nothing is written. */
  function GetUsers(t: Table, username: string, isEmail: string -> bool, injected: Option<SdkError>): (r: Outcome)
    requires Profiles(t)
    ensures r.table == t
    ensures r.response.status == 400 <==> username == ""
    ensures username != "" && injected.None? ==> (r.response.status == 200 <==> KeyOf(username) in t)
    ensures r.response.status == 200 ==>
      KeyOf(username) in t && r.response.body == UserJson(ToUser(username, t[KeyOf(username)]))
    ensures username != "" && injected.None? && KeyOf(username) !in t ==>
      r.response == HttpResponse(404, ErrorJson(EcsStore.Text("username " + username + " not found")))
    ensures username != "" && injected.Some? ==> r.response.status == 501
  {
    ParamsAccepted(username, isEmail);
    match Check(Joi.Params, ParamsSchema, Params(username), isEmail)
    case Some(rejection) => Outcome(rejection, t)
    case None =>
      match EcsStore.GetUser(t, username, injected)
      case Success(Some(user)) => Outcome(HttpResponse(200, UserJson(user)), t)
      case Success(None) =>
        Outcome(HttpResponse(404, ErrorJson(EcsStore.Text("username " + username + " not found"))), t)
      case Failure(e) => Outcome(HttpResponse(501, ErrorJson(e)), t)
  }

  /** `PATCH /users/:username`: the path parameter is checked before the body; an accepted body
      updates an existing user and answers 200 with no body; any store failure, including a
      missing user and an empty body, answers 501 with the thrown value. */
  function PatchUsers(t: Table, username: string, body: Json.Object, isEmail: string -> bool, injected: Option<SdkError>, validation: ValidationText): (r: Outcome)
    ensures r.response.status == 400 <==> username == "" || !ValidUpdateBody(body, isEmail)
    ensures username == "" ==>
      r.response.body == Text(Joi.ErrorText(Joi.Params, Joi.Validate(ParamsSchema, Params(username), isEmail)))
    ensures r.response.status == 200 <==>
      username != "" && ValidUpdateBody(body, isEmail) && injected.None? && |body| > 0 && KeyOf(username) in t
    ensures r.response.status == 200 ==>
      r.table == t[KeyOf(username) := PatchedItem(t[KeyOf(username)], PatchOf(body).value)] && r.response.body == NoBody
    ensures r.response.status != 200 ==> r.table == t
    ensures username != "" && ValidUpdateBody(body, isEmail) && injected.None? && |body| > 0 && KeyOf(username) !in t ==>
      r.response == HttpResponse(501, ErrorJson(EcsStore.Text("username not found")))
    ensures username != "" && ValidUpdateBody(body, isEmail) && injected.None? && |body| == 0 ==>
      r.response == HttpResponse(501, ErrorJson(EcsStore.Text(validation.message)))
    ensures Profiles(t) ==> Profiles(r.table)
  {
    ParamsAccepted(username, isEmail);
    match Check(Joi.Params, ParamsSchema, Params(username), isEmail)
    case Some(rejection) => Outcome(rejection, t)
    case None => PatchBody(t, username, body, isEmail, injected, validation)
  }

  /** `PATCH` once the path parameter has passed: the body is checked, then handed to the store. */
  function PatchBody(t: Table, username: string, body: Json.Object, isEmail: string -> bool, injected: Option<SdkError>, validation: ValidationText): (r: Outcome)
    ensures r.response.status == 400 <==> !ValidUpdateBody(body, isEmail)
    ensures r.response.status == 200 <==> ValidUpdateBody(body, isEmail) && injected.None? && |body| > 0 && KeyOf(username) in t
    ensures r.response.status == 200 ==>
      r.table == t[KeyOf(username) := PatchedItem(t[KeyOf(username)], PatchOf(body).value)] && r.response.body == NoBody
    ensures r.response.status != 200 ==> r.table == t
    ensures ValidUpdateBody(body, isEmail) && injected.None? && |body| > 0 && KeyOf(username) !in t ==>
      r.response == HttpResponse(501, ErrorJson(EcsStore.Text("username not found")))
    ensures ValidUpdateBody(body, isEmail) && injected.None? && |body| == 0 ==>
      r.response == HttpResponse(501, ErrorJson(EcsStore.Text(validation.message)))
    ensures Profiles(t) ==> Profiles(r.table)
  {
    UpdateBodyAccepted(body, isEmail);
    match Check(Joi.Body, UpdateSchema, body, isEmail)
    case Some(rejection) => Outcome(rejection, t)
    case None =>
      var p := PatchOf(body).value;
      assert |p| == |body|;
      Updated(t, username, p, injected, validation)
  }

  /** The handler of an accepted `PATCH`: the store's outcome as a response. */
  function Updated(t: Table, username: string, p: Patch, injected: Option<SdkError>, validation: ValidationText): (r: Outcome)
    ensures r.response.status == 200 <==> injected.None? && |p| > 0 && KeyOf(username) in t
    ensures r.response.status == 200 ==>
      r.table == t[KeyOf(username) := PatchedItem(t[KeyOf(username)], p)] && r.response.body == NoBody
    ensures r.response.status != 200 ==> r.table == t && r.response.status == 501
    ensures injected.None? && |p| > 0 && KeyOf(username) !in t ==>
      r.response == HttpResponse(501, ErrorJson(EcsStore.Text("username not found")))
    ensures injected.None? && |p| == 0 ==> r.response == HttpResponse(501, ErrorJson(EcsStore.Text(validation.message)))
    ensures Profiles(t) ==> Profiles(r.table)
  {
    match EcsStore.UpdateUser(t, username, p, injected, validation)
    case Success(t') => Outcome(HttpResponse(200, NoBody), t')
    case Failure(e) => Outcome(HttpResponse(501, ErrorJson(e)), t)
  }
}

=== FILE: ecs_routes_spec.dfy ===
/** The container service's integration scenario (packages/rest-api-ecs/integration/users.spec.ts),
    stated on the model: the validator's reports, the create / patch / get sequence, and the
    answers for a username that does not exist. `isEmail` is any email check that accepts the
    address the scenario uses. */
module EcsRoutesSpec {
  import opened Wrappers
  import opened Strings
  import opened Users
  import opened Dynamo
  import opened Records
  import opened Bodies
  import opened EcsRoutes
  import Json
  import Joi
  import EcsStore

  const TestEmail := "test@example.com"
  const TestFullName := "Integration Test"

  predicate GoodUsername(u: string)
  {
    4 <= |u| <= 10 && IsAlnum(u)
  }

  /** What the create schema reports for a body holding only a valid username and, optionally,
      one of the two other required fields. */
  lemma {:induction false} UsernameOnlyViolations(u: string, isEmail: string -> bool)
    requires GoodUsername(u)
    ensures Joi.Validate(CreateSchema, [("username", Json.Str(u))], isEmail)
         == [Joi.Required("fullName"), Joi.Required("email")]
  {
    var body: Json.Object := [("username", Json.Str(u))];
    AlnumUtf16Length(u);
    UsernameRules(u, isEmail);
    assert Json.Get(body, "username") == Some(Json.Str(u));
    assert Json.Get(body, "fullName") == None && Json.Get(body, "email") == None && Json.Get(body, "address") == None;
    KnownFour(body, isEmail);
    assert Joi.KeyViolations(CreateSchema[0], body, isEmail) == [];
    assert Joi.KeyViolations(CreateSchema[1], body, isEmail) == [Joi.Required("fullName")];
    assert Joi.KeyViolations(CreateSchema[2], body, isEmail) == [Joi.Required("email")];
    assert Joi.KeyViolations(CreateSchema[3], body, isEmail) == [];
    CreateSchemaKeys();
    assert Joi.UnknownViolations(CreateSchema, body) == [] by {
      assert body[1..] == [];
    }
  }

  /** The create schema's report on its declared keys is the four keys' reports in order. */
  lemma KnownFour(body: Json.Object, isEmail: string -> bool)
    ensures Joi.KnownViolations(CreateSchema, body, isEmail)
         == Joi.KeyViolations(CreateSchema[0], body, isEmail) + Joi.KeyViolations(CreateSchema[1], body, isEmail)
          + Joi.KeyViolations(CreateSchema[2], body, isEmail) + Joi.KeyViolations(CreateSchema[3], body, isEmail)
  {
    var s := CreateSchema;
    var k0 := Joi.KeyViolations(s[0], body, isEmail);
    var k1 := Joi.KeyViolations(s[1], body, isEmail);
    var k2 := Joi.KeyViolations(s[2], body, isEmail);
    var k3 := Joi.KeyViolations(s[3], body, isEmail);
    assert s[1..][1..][1..][1..] == [];
    assert Joi.KnownViolations(s[1..][1..][1..], body, isEmail) == k3;
    assert Joi.KnownViolations(s[1..][1..], body, isEmail) == k2 + k3;
    assert Joi.KnownViolations(s[1..], body, isEmail) == k1 + (k2 + k3);
    assert Joi.KnownViolations(s, body, isEmail) == k0 + (k1 + (k2 + k3));
  }

  lemma QuotedMessages()
    ensures Joi.Message(Joi.Required("fullName")) == "\"fullName\" is required"
    ensures Joi.Message(Joi.Required("email")) == "\"email\" is required"
    ensures Joi.Message(Joi.NotAllowed("foo")) == "\"foo\" is not allowed"
  {
    assert "\"" + "fullName" + "\"" + " is required" == "\"fullName\" is required";
    assert "\"" + "email" + "\"" + " is required" == "\"email\" is required";
    assert "\"" + "foo" + "\"" + " is not allowed" == "\"foo\" is not allowed";
  }

  lemma JoinTwo(a: string, b: string)
    ensures Join(". ", [a, b]) == a + ". " + b
  {
    assert [a, b][1..] == [b];
  }

  lemma MissingFieldsMessages()
    ensures Joi.MessagesOf([Joi.Required("fullName"), Joi.Required("email")])
         == ["\"fullName\" is required", "\"email\" is required"]
  {
    var vs := [Joi.Required("fullName"), Joi.Required("email")];
    QuotedMessages();
    assert vs[1..] == [Joi.Required("email")] && vs[1..][1..] == [];
  }

  lemma MissingFieldsText()
    ensures Joi.ErrorText(Joi.Body, [Joi.Required("fullName"), Joi.Required("email")])
         == "Error validating request body. " + "\"fullName\" is required. \"email\" is required."
  {
    MissingFieldsMessages();
    var a := "\"fullName\" is required";
    var b := "\"email\" is required";
    JoinTwo(a, b);
    MissingFieldsLiteral(a, b);
  }

  lemma MissingFieldsLiteral(a: string, b: string)
    requires a == "\"fullName\" is required" && b == "\"email\" is required"
    ensures a + ". " + b + "." == "\"fullName\" is required. \"email\" is required."
  {
    var x := a + ". " + b + ".";
    var y := "\"fullName\" is required. \"email\" is required.";
    assert |x| == |y|;
    forall i | 0 <= i < |x| ensures x[i] == y[i] { }
  }

  /** A body with only a username is answered 400, naming both missing fields in schema order. */
  lemma MissingFieldsReported(t: Table, u: string, isEmail: string -> bool, injected: Option<SdkError>)
    requires GoodUsername(u)
    ensures PostUsers(t, [("username", Json.Str(u))], isEmail, injected)
         == Outcome(HttpResponse(400, Text("Error validating request body. " + "\"fullName\" is required. \"email\" is required.")), t)
  {
    UsernameOnlyViolations(u, isEmail);
    CreateBodyAccepted([("username", Json.Str(u))], isEmail);
    MissingFieldsText();
  }

  lemma {:induction false} UnknownMemberViolations(u: string, isEmail: string -> bool)
    requires GoodUsername(u) && isEmail(TestEmail)
    ensures Joi.Validate(CreateSchema, [("username", Json.Str(u)), ("fullName", Json.Str(TestFullName)), ("email", Json.Str(TestEmail)), ("foo", Json.Str("bar"))], isEmail)
         == [Joi.NotAllowed("foo")]
  {
    var body: Json.Object := [("username", Json.Str(u)), ("fullName", Json.Str(TestFullName)), ("email", Json.Str(TestEmail)), ("foo", Json.Str("bar"))];
    DeclaredMembersPass(u, isEmail);
    KnownFour(body, isEmail);
    CreateSchemaKeys();
    var rest := body[1..][1..][1..];
    assert rest == [("foo", Json.Str("bar"))] && rest[1..] == [];
    assert Joi.UnknownViolations(CreateSchema, rest) == [Joi.NotAllowed("foo")];
    assert Joi.UnknownViolations(CreateSchema, body[1..][1..]) == [Joi.NotAllowed("foo")];
    assert Joi.UnknownViolations(CreateSchema, body[1..]) == [Joi.NotAllowed("foo")];
    assert Joi.UnknownViolations(CreateSchema, body) == [Joi.NotAllowed("foo")];
  }

  /** The declared members of that body each meet their key's rules. */
  lemma DeclaredMembersPass(u: string, isEmail: string -> bool)
    requires GoodUsername(u) && isEmail(TestEmail)
    ensures
      var body: Json.Object := [("username", Json.Str(u)), ("fullName", Json.Str(TestFullName)), ("email", Json.Str(TestEmail)), ("foo", Json.Str("bar"))];
      && Joi.KeyViolations(CreateSchema[0], body, isEmail) == []
      && Joi.KeyViolations(CreateSchema[1], body, isEmail) == []
      && Joi.KeyViolations(CreateSchema[2], body, isEmail) == []
      && Joi.KeyViolations(CreateSchema[3], body, isEmail) == []
  {
    var body: Json.Object := [("username", Json.Str(u)), ("fullName", Json.Str(TestFullName)), ("email", Json.Str(TestEmail)), ("foo", Json.Str("bar"))];
    AlnumUtf16Length(u);
    UsernameRules(u, isEmail);
    Json.GetAt(body, 0);
    Json.GetAt(body, 1);
    Json.GetAt(body, 2);
    assert Json.Get(body, "address") == None by {
      assert "address" !in Json.Keys(body);
    }
    assert |TestFullName| == 16;
    MaxRules(CreateSchema[1].rules, 50, TestFullName, isEmail);
    EmailRules(CreateSchema[2].rules, TestEmail, isEmail);
  }

  lemma UnknownMemberText()
    ensures Joi.ErrorText(Joi.Body, [Joi.NotAllowed("foo")]) == "Error validating request body. \"foo\" is not allowed."
  {
    QuotedMessages();
    assert Joi.MessagesOf([Joi.NotAllowed("foo")]) == ["\"foo\" is not allowed"];
    var x := "Error validating request body. " + "\"foo\" is not allowed" + ".";
    var y := "Error validating request body. \"foo\" is not allowed.";
    assert |x| == |y|;
    forall i | 0 <= i < |x| ensures x[i] == y[i] { }
  }

  /** A member the schema does not declare is refused by name, and the body is not stored. */
  lemma UnknownMemberReported(t: Table, u: string, isEmail: string -> bool, injected: Option<SdkError>)
    requires GoodUsername(u) && isEmail(TestEmail)
    ensures PostUsers(t, [("username", Json.Str(u)), ("fullName", Json.Str(TestFullName)), ("email", Json.Str(TestEmail)), ("foo", Json.Str("bar"))], isEmail, injected)
         == Outcome(HttpResponse(400, Text("Error validating request body. \"foo\" is not allowed.")), t)
  {
    var body: Json.Object := [("username", Json.Str(u)), ("fullName", Json.Str(TestFullName)), ("email", Json.Str(TestEmail)), ("foo", Json.Str("bar"))];
    UnknownMemberViolations(u, isEmail);
    CreateBodyAccepted(body, isEmail);
    UnknownMemberText();
  }

  // ---------------------------------------------------------------------------------------------
  // Create, patch and read back; a username that does not exist

  function CreateBody(u: string): Json.Object
  {
    [("username", Json.Str(u)), ("fullName", Json.Str(TestFullName)), ("email", Json.Str(TestEmail))]
  }

  const MarsBody: Json.Object := [("address", Json.Str("Mars"))]

  lemma CreateBodyUser(u: string, isEmail: string -> bool)
    requires GoodUsername(u) && isEmail(TestEmail)
    ensures ValidCreateBody(CreateBody(u), isEmail)
    ensures UserOf(CreateBody(u)) == Some(User(u, TestFullName, TestEmail, None))
  {
    CreateBodyUserOf(u);
    AlnumUtf16Length(u);
  }

  lemma CreateBodyUserOf(u: string)
    ensures UserOf(CreateBody(u)) == Some(User(u, TestFullName, TestEmail, None))
  {
    var body := CreateBody(u);
    Json.GetAt(body, 0);
    Json.GetAt(body, 1);
    Json.GetAt(body, 2);
    assert Json.Keys(body) == {"username", "fullName", "email"};
    assert Json.Get(body, "address") == None;
  }

  lemma MarsBodyPatch(isEmail: string -> bool)
    ensures ValidUpdateBody(MarsBody, isEmail)
    ensures PatchOf(MarsBody).value == [Entry(Address, "Mars")]
  {
    MembersAsEntries(MarsBody, isEmail);
    assert ValidMember(MarsBody[0], isEmail);
  }

  /** The integration sequence: creating a new user answers 201, patching its address answers
      200, and reading it back gives the created fields with the new address. */
  lemma CreatePatchGet(t: Table, u: string, isEmail: string -> bool, v: ValidationText)
    requires GoodUsername(u) && isEmail(TestEmail) && Profiles(t)
    ensures PostUsers(t, CreateBody(u), isEmail, None).response == HttpResponse(201, NoBody)
    ensures
      var created := PostUsers(t, CreateBody(u), isEmail, None).table;
      && PatchUsers(created, u, MarsBody, isEmail, None, v).response == HttpResponse(200, NoBody)
      && var patched := PatchUsers(created, u, MarsBody, isEmail, None, v).table;
      && Profiles(patched)
      && GetUsers(patched, u, isEmail, None).response == HttpResponse(200, UserJson(User(u, TestFullName, TestEmail, Some("Mars"))))
  {
    var user := User(u, TestFullName, TestEmail, None);
    CreateStep(t, u, isEmail);
    var created := t[KeyOf(u) := ItemOf(user)];
    PatchStep(created, u, isEmail, v);
  }

  /** The create of the integration sequence stores the test profile. */
  lemma CreateStep(t: Table, u: string, isEmail: string -> bool)
    requires GoodUsername(u) && isEmail(TestEmail) && Profiles(t)
    ensures PostUsers(t, CreateBody(u), isEmail, None)
         == Outcome(HttpResponse(201, NoBody), t[KeyOf(u) := ItemOf(User(u, TestFullName, TestEmail, None))])
  {
    CreateBodyUser(u, isEmail);
  }

  /** The patch of the integration sequence, on a table holding the test profile. */
  lemma PatchStep(created: Table, u: string, isEmail: string -> bool, v: ValidationText)
    requires Profiles(created) && u != ""
    requires KeyOf(u) in created && created[KeyOf(u)] == ItemOf(User(u, TestFullName, TestEmail, None))
    ensures PatchUsers(created, u, MarsBody, isEmail, None, v).response == HttpResponse(200, NoBody)
    ensures
      var patched := PatchUsers(created, u, MarsBody, isEmail, None, v).table;
      && Profiles(patched)
      && GetUsers(patched, u, isEmail, None).response == HttpResponse(200, UserJson(User(u, TestFullName, TestEmail, Some("Mars"))))
  {
    MarsBodyPatch(isEmail);
    var user := User(u, TestFullName, TestEmail, None);
    var p: Patch := [Entry(Address, "Mars")];
    var patched := PatchUsers(created, u, MarsBody, isEmail, None, v).table;
    assert patched == created[KeyOf(u) := PatchedItem(ItemOf(user), p)];
    ToUserItemOf(user);
    ToUserPatched(u, ItemOf(user), p);
    assert Lookup(p, Address) == Some("Mars") && Lookup(p, FullName) == None && Lookup(p, Email) == None;
    assert Patched(user, p) == User(u, TestFullName, TestEmail, Some("Mars"));
  }

  /** Twenty-six copies of U+1F600: 26 characters, each a surrogate pair in UTF-16. */
  const WideName: string := seq(26, _ => '\U{1F600}')

  /** The schemas measure text as JavaScript does, in UTF-16 units: a full name of 26 emoji is 52
      units long, over `max(50)`, so both the create and the update body carrying it are refused
      with 400 and nothing is stored. */
  lemma WideFullNameRefused(t: Table, u: string, isEmail: string -> bool, injected: Option<SdkError>, v: ValidationText)
    requires GoodUsername(u)
    ensures |WideName| == 26 && Utf16Length(WideName) == 52
    ensures
      var r := PostUsers(t, BodyOf(User(u, WideName, TestEmail, None)), isEmail, injected);
      r.response.status == 400 && r.table == t
    ensures
      var r := PatchUsers(t, u, [("fullName", Json.Str(WideName))], isEmail, injected, v);
      r.response.status == 400 && r.table == t
  {
    AllAstral(WideName);
    UserOfBodyOf(User(u, WideName, TestEmail, None));
    var body: Json.Object := [("fullName", Json.Str(WideName))];
    var p := PatchOf(body).value;
    assert FieldName(p[0].field) == "fullName" && p[0].value == WideName;
    assert !ValidEntry(p[0], isEmail);
  }

  lemma NotFoundText()
    ensures "username " + "non-existent" + " not found" == "username non-existent not found"
  {
    var x := "username " + "non-existent" + " not found";
    var y := "username non-existent not found";
    assert |x| == |y|;
    forall i | 0 <= i < |x| ensures x[i] == y[i] { }
  }

  /** For a username with no record, `PATCH` answers 501 with the store's string and `GET`
      answers 404 naming the username. */
  lemma MissingUserAnswers(t: Table, isEmail: string -> bool, v: ValidationText)
    requires Profiles(t) && KeyOf("non-existent") !in t
    ensures PatchUsers(t, "non-existent", MarsBody, isEmail, None, v).response
         == HttpResponse(501, ErrorJson(EcsStore.Text("username not found")))
    ensures GetUsers(t, "non-existent", isEmail, None).response
         == HttpResponse(404, ErrorJson(EcsStore.Text("username non-existent not found")))
  {
    MarsBodyPatch(isEmail);
    NotFoundText();
  }
}

=== FILE: ecs_store.dfy ===
/** The container variant of `UserStoreDynamoDB`
    (packages/rest-api-ecs/src/store/user/user-store-dynamodb.ts): an unconditional create, a get
    that answers `undefined` for a missing user, the same conditional update, and failures thrown
    as plain strings. */
module EcsStore {
  import opened Wrappers
  import opened Users
  import opened Dynamo
  import opened Records

  /** What the variant throws: a plain string, or the client's own error passed on unchanged. */
  datatype Thrown = Text(text: string) | Rethrown(error: SdkError)

  /** The `catch` blocks on an error the client reports: a failed condition becomes
      `conditionText`, another service exception its message, anything else is rethrown as it is. */
  function ClassifyReported(e: SdkError, conditionText: string): Thrown
  {
    if e.ConditionalCheckFailed? then Text(conditionText)
    else if e.ServiceError? then Text(e.message)
    else Rethrown(e)
  }

  /** The same blocks on any refusal of the table; a malformed request surfaces as the message of
      the table's `validation`. */
  function Classify(f: Refusal, conditionText: string, validation: ValidationText): Thrown
  {
    match f
    case ConditionFailed => Text(conditionText)
    case Malformed => Text(validation.message)
    case Reported(e) => ClassifyReported(e, conditionText)
  }

  /** The put `createUser` sends: the user's item, with no condition. */
  function CreateRequest(user: User): PutRequest
  {
    PutRequest(ItemOf(user), None)
  }

  /** `createUser`: writes the user's item whether or not the username exists, so it fails only
      when the client itself reports a failure. */
  function CreateUser(t: Table, user: User, injected: Option<SdkError>): (r: Result<Table, Thrown>)
    ensures injected.None? ==> r == Success(t[KeyOf(user.username) := ItemOf(user)])
    ensures r.Failure? <==> injected.Some?
    ensures injected.Some? && injected.value.ConditionalCheckFailed? ==> r == Failure(Text("username exists"))
    ensures injected.Some? && injected.value.ServiceError? ==> r == Failure(Text(injected.value.message))
    ensures injected.Some? && injected.value.ClientError? ==> r == Failure(Rethrown(injected.value))
    ensures Profiles(t) && r.Success? ==> Profiles(r.value)
  {
    ToUserItemOf(user);
    match Put(t, CreateRequest(user), injected)
    case Success(t') => Success(t')
    case Failure(f) => Failure(if f.Reported? then ClassifyReported(f.error, "username exists") else Text("username exists"))
  }

  /** `getUser`: the stored user, or `None` when there is no item at the user's key. */
  function GetUser(t: Table, username: string, injected: Option<SdkError>): (r: Result<Option<User>, Thrown>)
    requires Profiles(t)
    ensures injected.None? ==> r.Success? && (r.value.Some? <==> KeyOf(username) in t)
    ensures r.Success? && r.value.Some? ==> KeyOf(username) in t && r.value.value == ToUser(username, t[KeyOf(username)])
    ensures injected.Some? && injected.value.IsServiceException() ==> r == Failure(Text(injected.value.message))
    ensures injected.Some? && injected.value.ClientError? ==> r == Failure(Rethrown(injected.value))
  {
    match Dynamo.Get(t, KeyOf(username), injected)
    case Failure(e) => Failure(if e.IsServiceException() then Text(e.message) else Rethrown(e))
    case Success(None) => Success(None)
    case Success(Some(item)) => Success(Some(ToUser(username, item)))
  }

  /** The update `updateUser` sends: the same request as the serverless store's. */
  function UpdateRequestFor(username: string, p: Patch): UpdateRequest
  {
    UpdateRequest(KeyOf(username), Some(KeyPresent), UpdateFor(p))
  }

  /** `updateUser`: changes only the patched attributes of an existing item; a missing user throws
      the string `'username not found'`. */
  function UpdateUser(t: Table, username: string, p: Patch, injected: Option<SdkError>, validation: ValidationText): (r: Result<Table, Thrown>)
    ensures injected.None? && |p| > 0 ==> (r.Success? <==> KeyOf(username) in t)
    ensures r.Success? ==> KeyOf(username) in t && r.value == t[KeyOf(username) := PatchedItem(t[KeyOf(username)], p)]
    ensures injected.None? && |p| > 0 && KeyOf(username) !in t ==> r == Failure(Text("username not found"))
    ensures injected.None? && |p| == 0 ==> r == Failure(Text(validation.message))
    ensures injected.Some? && injected.value.ConditionalCheckFailed? ==> r == Failure(Text("username not found"))
    ensures injected.Some? && injected.value.ServiceError? ==> r == Failure(Text(injected.value.message))
    ensures injected.Some? && injected.value.ClientError? ==> r == Failure(Rethrown(injected.value))
    ensures Profiles(t) && r.Success? ==> Profiles(r.value)
  {
    InterpretUpdateFor(p);
    ApplyEntriesEverywhere(p);
    PatchedKeepsProfile(p);
    match UpdateItem(t, UpdateRequestFor(username, p), injected)
    case Success(t') => Success(t')
    case Failure(f) => Failure(Classify(f, "username not found", validation))
  }

  /** Creating an existing username overwrites its record: two creates of one username both succeed,
      and the second one's fields win. */
  lemma CreateOverwrites(t: Table, first: User, second: User)
    requires first.username == second.username
    ensures CreateUser(t, first, None).Success?
    ensures CreateUser(CreateUser(t, first, None).value, second, None)
         == Success(t[KeyOf(second.username) := ItemOf(second)])
  {
    var k := KeyOf(first.username);
    assert t[k := ItemOf(first)][k := ItemOf(second)] == t[k := ItemOf(second)];
  }
}

=== FILE: ecs_store_spec.dfy ===
/** The unit test of the container store
    (packages/rest-api-ecs/src/store/user/user-store-dynamodb.spec.ts) checked against both store
    variants. The test pins the builder's exact output and the record layout, which both variants
    share; its expectations about conditions and errors are those of the serverless store, and the
    container store it is written for does not meet them. */
module EcsStoreSpec {
  import opened Wrappers
  import opened Users
  import opened Dynamo
  import opened Records
  import opened Api
  import UpdateExpression
  import ServerlessStore
  import EcsStore

  const TestUser := User("unittest", "Unit Test", "test@example.com", None)

  /** The put the test expects: the key attributes plus email and fullName, and an absence
      condition. The serverless store sends exactly that; the container store sends no condition. */
  lemma CreateInputAsTested()
    ensures ItemOf(TestUser) == map["PK" := "USER#unittest", "SK" := "#PROFILE#unittest",
                                    "email" := "test@example.com", "fullName" := "Unit Test"]
    ensures ServerlessStore.CreateRequest(TestUser) == PutRequest(ItemOf(TestUser), Some(KeyAbsent))
    ensures ConditionExpression(KeyAbsent) == "attribute_not_exists(PK) and attribute_not_exists(SK)"
    ensures EcsStore.CreateRequest(TestUser).condition.None?
  {
    assert KeyOf("unittest") == Key("USER#unittest", "#PROFILE#unittest");
  }

  /** For every user the two variants send the same item and differ only in the condition. */
  lemma CreateRequestsDiffer(user: User)
    ensures ServerlessStore.CreateRequest(user).item == EcsStore.CreateRequest(user).item
    ensures ServerlessStore.CreateRequest(user).condition == Some(KeyAbsent)
    ensures EcsStore.CreateRequest(user).condition == None
  {
  }

  /** A rejected conditional put: the test expects `APIError('username exists', 400)`. The
      serverless store throws it; the container store throws the bare string. */
  lemma ConditionalFailureAsTested(t: Table, message: string, json: string)
    ensures ServerlessStore.CreateUser(t, TestUser, Some(ConditionalCheckFailed(message, json))) == Failure(APIError("username exists", 400))
    ensures EcsStore.CreateUser(t, TestUser, Some(ConditionalCheckFailed(message, json))) == Failure(EcsStore.Text("username exists"))
  {
  }

  /** The value the test's mock rejects with: the bare string `'some other error'`, which is no
      service exception. `${error}` gives the string itself; `JSON.stringify` gives it quoted. */
  const OtherError := ClientError("some other error", "\"some other error\"")

  /** Any other rejection: the test expects a 500 `APIError` whose message reads
      `cannot create user. Error: some other error` (`cannot update user. …` on update). The
      serverless store interpolates the rejected string itself, so its message lacks the `Error: `
      the test expects; the container store rethrows the string unchanged. Neither meets the test.
      The outcome depends on neither the table, the user nor the patch, so all are left free. */
  lemma OtherFailureAsTested(t: Table, u: User, username: string, p: Patch, v: ValidationText)
    ensures ServerlessStore.CreateUser(t, u, Some(OtherError))
         == Failure(APIError("cannot create user. some other error", 500))
    ensures ServerlessStore.UpdateUser(t, username, p, Some(OtherError), v)
         == Failure(APIError("cannot update user. some other error", 500))
    ensures EcsStore.CreateUser(t, u, Some(OtherError)) == Failure(EcsStore.Rethrown(OtherError))
    ensures EcsStore.UpdateUser(t, username, p, Some(OtherError), v) == Failure(EcsStore.Rethrown(OtherError))
    ensures ServerlessStore.CreateUser(t, u, Some(OtherError))
         != Failure(APIError("cannot create user. Error: some other error", 500))
    ensures ServerlessStore.UpdateUser(t, username, p, Some(OtherError), v)
         != Failure(APIError("cannot update user. Error: some other error", 500))
  {
    OtherCreateFailure(t, u);
    OtherUpdateFailure(t, username, p, v);
  }

  lemma OtherCreateFailure(t: Table, u: User)
    ensures ServerlessStore.CreateUser(t, u, Some(OtherError))
         == Failure(APIError("cannot create user. some other error", 500))
  {
    ClientCreateFailure(t, u, "some other error", OtherError.json);
    Prefixed("cannot create user. ", "some other error", "cannot create user. some other error");
  }

  lemma OtherUpdateFailure(t: Table, username: string, p: Patch, v: ValidationText)
    ensures ServerlessStore.UpdateUser(t, username, p, Some(OtherError), v)
         == Failure(APIError("cannot update user. some other error", 500))
  {
    ClientUpdateFailure(t, username, p, "some other error", OtherError.json, v);
    Prefixed("cannot update user. ", "some other error", "cannot update user. some other error");
  }

  lemma ClientCreateFailure(t: Table, u: User, shown: string, json: string)
    ensures ServerlessStore.CreateUser(t, u, Some(ClientError(shown, json)))
         == Failure(APIError("cannot create user. " + shown, 500))
  {
  }

  lemma ClientUpdateFailure(t: Table, username: string, p: Patch, shown: string, json: string, v: ValidationText)
    ensures ServerlessStore.UpdateUser(t, username, p, Some(ClientError(shown, json)), v)
         == Failure(APIError("cannot update user. " + shown, 500))
  {
  }

  lemma Prefixed(a: string, b: string, c: string)
    requires |a| + |b| == |c|
    requires forall i :: 0 <= i < |a| ==> a[i] == c[i]
    requires forall i :: 0 <= i < |b| ==> b[i] == c[|a| + i]
    ensures a + b == c
  {
  }

  /** A stored item reads back with the key attributes dropped, in both variants. */
  lemma GetAsTested()
    ensures var item := map["PK" := "USER#unittest", "SK" := "#PROFILE#unittest", "email" := "test@example.com",
                            "fullName" := "Unit Test", "address" := "Mars"];
      var t := map[KeyOf("unittest") := item];
      ServerlessStore.GetUser(t, "unittest", None) == Success(User("unittest", "Unit Test", "test@example.com", Some("Mars")))
      && EcsStore.GetUser(t, "unittest", None) == Success(Some(User("unittest", "Unit Test", "test@example.com", Some("Mars"))))
  {
  }

  /** A missing user: the test expects `APIError('username not found', 404)`. The serverless
      store throws it; the container store answers `undefined`. */
  lemma MissingUserAsTested()
    ensures ServerlessStore.GetUser(map[], "unittest", None) == Failure(APIError("username not found", 404))
    ensures EcsStore.GetUser(map[], "unittest", None) == Success(None)
  {
  }

  const TestEntries: seq<(string, string)> := [("email", "test2@example.com"), ("address", "Pluto")]

  /** The builder's exact output for the entries the test uses. */
  lemma BuilderAsTested()
    ensures UpdateExpression.Build(TestEntries) == UpdateExpression.Update(
      "SET #email = :email, #address = :address",
      map["#email" := "email", "#address" := "address"],
      map[":email" := "test2@example.com", ":address" := "Pluto"])
  {
    ExpressionAsTested();
    NamesAsTested();
    ValuesAsTested();
  }

  lemma ExpressionAsTested()
    ensures UpdateExpression.Build(TestEntries).expression == "SET #email = :email, #address = :address"
  {
    ExpressionShape();
    EmailAssignment();
    AddressAssignment();
    JoinedText();
  }

  lemma JoinedText()
    ensures "SET " + ("#email = :email" + ", " + "#address = :address") == "SET #email = :email, #address = :address"
  {
  }

  lemma EmailAssignment()
    ensures UpdateExpression.Assignment("email") == "#email = :email"
  {
    AssignmentText("email");
  }

  lemma AddressAssignment()
    ensures UpdateExpression.Assignment("address") == "#address = :address"
  {
    AssignmentText("address");
  }

  lemma ExpressionShape()
    ensures UpdateExpression.Build(TestEntries).expression
         == "SET " + (UpdateExpression.Assignment("email") + ", " + UpdateExpression.Assignment("address"))
  {
    var es := TestEntries;
    assert es[1..] == [("address", "Pluto")];
    assert es[1..][1..] == [];
    assert UpdateExpression.Assignments(es) == [UpdateExpression.Assignment("email"), UpdateExpression.Assignment("address")];
  }

  lemma AssignmentText(key: string)
    ensures UpdateExpression.Assignment(key) == "#" + key + " = :" + key
  {
  }

  lemma NamesAsTested()
    ensures UpdateExpression.Build(TestEntries).names == map["#email" := "email", "#address" := "address"]
  {
    var es := TestEntries;
    UpdateExpression.NamesContent(es);
    var m := UpdateExpression.Names(es);
    assert UpdateExpression.NamePlaceholder(es[0].0) == "#email";
    assert UpdateExpression.NamePlaceholder(es[1].0) == "#address";
    assert m.Keys == {"#email", "#address"};
  }

  lemma ValuesAsTested()
    ensures UpdateExpression.Build(TestEntries).values == map[":email" := "test2@example.com", ":address" := "Pluto"]
  {
    var es := TestEntries;
    UpdateExpression.ValuesContent(es);
    var m := UpdateExpression.Values(es);
    assert UpdateExpression.ValuePlaceholder(es[0].0) == ":email";
    assert UpdateExpression.ValuePlaceholder(es[1].0) == ":address";
    assert m.Keys == {":email", ":address"};
  }

  /** The update request the test pins, which both variants send for the patch
      `{email: 'test2@example.com', address: 'Pluto'}`. */
  lemma UpdateInputAsTested()
    ensures var p: Patch := [Entry(Email, "test2@example.com"), Entry(Address, "Pluto")];
      && UpdateFor(p).expression == "SET #email = :email, #address = :address"
      && UpdateFor(p).names == map["#email" := "email", "#address" := "address"]
      && UpdateFor(p).values == map[":email" := "test2@example.com", ":address" := "Pluto"]
      && ServerlessStore.UpdateRequestFor("unittest", p) == EcsStore.UpdateRequestFor("unittest", p)
      && ServerlessStore.UpdateRequestFor("unittest", p).key == Key("USER#unittest", "#PROFILE#unittest")
      && ServerlessStore.UpdateRequestFor("unittest", p).condition == Some(KeyPresent)
      && ConditionExpression(KeyPresent) == "attribute_exists(PK) and attribute_exists(SK)"
  {
    var p: Patch := [Entry(Email, "test2@example.com"), Entry(Address, "Pluto")];
    TestPatchEntries();
    BuilderAsTested();
    TestKey();
  }

  lemma TestPatchEntries()
    ensures Entries([Entry(Email, "test2@example.com"), Entry(Address, "Pluto")]) == TestEntries
  {
  }

  lemma TestKey()
    ensures KeyOf("unittest") == Key("USER#unittest", "#PROFILE#unittest")
  {
  }
}

=== FILE: gateway.dfy ===
/** The request checks API Gateway applies before the serverless handlers run
    (packages/rest-api-serverless/infra/api/users.ts): the JSON schemas of the create and update
    bodies, the required `username` path parameter, and the API-key requirement. The gateway's
    own wording of its rejections is not modelled; a rejection lists what is wrong. */
module Gateway {
  import opened Wrappers
  import opened Users
  import opened Bodies
  import Json

  datatype Method = Post | Get | Patch

  /** `apiKeyRequired: apiKeySecretName !== undefined` on POST and PATCH; GET sets no such flag. */
  predicate ApiKeyRequired(m: Method, apiKeySecretName: Option<string>)
  {
    match m
    case Post => apiKeySecretName.Some?
    case Patch => apiKeySecretName.Some?
    case Get => false
  }

  /** `'method.request.path.username': true` on PATCH and GET; POST has no path parameter. */
  predicate RequiresUsername(m: Method)
  {
    m != Post
  }

  /** A JSON schema of type object whose listed properties are all of type string, with
      `additionalProperties: false`. */
  datatype ObjectSchema = ObjectSchema(properties: set<string>, required: set<string>)

  const CreateUserSchema := ObjectSchema({"username", "fullName", "email", "address"}, {"username", "fullName", "email"})
  const UpdateUserSchema := ObjectSchema({"fullName", "email", "address"}, {})

  datatype Violation =
    | MissingRequired(names: set<string>)   // "object has missing required properties"
    | NotAllowed(names: set<string>)        // "properties which are not allowed by the schema"
    | NotString(name: string)               // a declared property whose value is not a string

  function NonStrings(properties: set<string>, body: Json.Object): seq<Violation>
  {
    if |body| == 0 then []
    else
      (if body[0].0 in properties && !body[0].1.Str? then [NotString(body[0].0)] else [])
      + NonStrings(properties, body[1..])
  }

  function Missing(schema: ObjectSchema, body: Json.Object): seq<Violation>
  {
    var missing := schema.required - Json.Keys(body);
    if missing == {} then [] else [MissingRequired(missing)]
  }

  function Extra(schema: ObjectSchema, body: Json.Object): seq<Violation>
  {
    var extra := Json.Keys(body) - schema.properties;
    if extra == {} then [] else [NotAllowed(extra)]
  }

  /** Everything the validator reports about a body. */
  function Validate(schema: ObjectSchema, body: Json.Object): seq<Violation>
  {
    Missing(schema, body) + Extra(schema, body) + NonStrings(schema.properties, body)
  }

  lemma SetDifferenceEmpty(a: set<string>, b: set<string>)
    ensures a - b == {} <==> a <= b
  {
    if a - b == {} {
      forall x | x in a ensures x in b {
        assert x !in a - b;
      }
    }
  }

  predicate Accepts(schema: ObjectSchema, body: Json.Object)
  {
    |Validate(schema, body)| == 0
  }

  lemma {:induction false} NonStringsEmpty(properties: set<string>, body: Json.Object)
    ensures |NonStrings(properties, body)| == 0 <==>
      forall i :: 0 <= i < |body| && body[i].0 in properties ==> body[i].1.Str?
    decreases |body|
  {
    if |body| > 0 {
      var rest: Json.Object := body[1..];
      NonStringsEmpty(properties, rest);
      assert forall i :: 0 < i < |body| ==> body[i] == rest[i - 1];
    }
  }

  /** A body passes exactly when it has every required property, no other property, and a string
      for each property it has. */
  lemma AcceptsExactly(schema: ObjectSchema, body: Json.Object)
    ensures Accepts(schema, body) <==>
      && schema.required <= Json.Keys(body)
      && Json.Keys(body) <= schema.properties
      && forall i :: 0 <= i < |body| ==> body[i].1.Str?
  {
    NonStringsEmpty(schema.properties, body);
    SetDifferenceEmpty(schema.required, Json.Keys(body));
    SetDifferenceEmpty(Json.Keys(body), schema.properties);
    if Json.Keys(body) <= schema.properties {
      assert forall i :: 0 <= i < |body| ==> body[i].0 in Json.Keys(body);
    }
  }

  /** The report names exactly the missing required properties and exactly the undeclared ones. */
  lemma ReportsNames(schema: ObjectSchema, body: Json.Object)
    ensures MissingRequired(schema.required - Json.Keys(body)) in Validate(schema, body) <==> !(schema.required <= Json.Keys(body))
    ensures NotAllowed(Json.Keys(body) - schema.properties) in Validate(schema, body) <==> !(Json.Keys(body) <= schema.properties)
    ensures forall v :: v in Validate(schema, body) && v.MissingRequired? ==> v.names == schema.required - Json.Keys(body)
    ensures forall v :: v in Validate(schema, body) && v.NotAllowed? ==> v.names == Json.Keys(body) - schema.properties
  {
    NonStringsOnly(schema.properties, body);
    SetDifferenceEmpty(schema.required, Json.Keys(body));
    SetDifferenceEmpty(Json.Keys(body), schema.properties);
    var a, b, c := Missing(schema, body), Extra(schema, body), NonStrings(schema.properties, body);
    assert forall v :: v in a + b + c <==> v in a || v in b || v in c;
  }

  lemma {:induction false} NonStringsOnly(properties: set<string>, body: Json.Object)
    ensures forall v :: v in NonStrings(properties, body) ==> v.NotString?
    decreases |body|
  {
    if |body| > 0 {
      NonStringsOnly(properties, body[1..]);
    }
  }

  /** The create schema accepts a body exactly when the body describes a `User`. */
  lemma CreateAcceptsUsers(body: Json.Object)
    ensures Accepts(CreateUserSchema, body) <==> UserOf(body).Some?
  {
    AcceptsExactly(CreateUserSchema, body);
    if UserOf(body).Some? {
      forall i | 0 <= i < |body| ensures body[i].1.Str? {
        assert body[i].0 in Json.Keys(body);
        Json.GetAt(body, i);
      }
    }
    if Accepts(CreateUserSchema, body) {
      forall k | k in Json.Keys(body) ensures Json.GetString(body, k).Some? {
        var i :| 0 <= i < |body| && body[i].0 == k;
        Json.GetAt(body, i);
      }
    }
  }

  /** The update schema accepts a body exactly when the body describes a `Patch`. */
  lemma UpdateAcceptsPatches(body: Json.Object)
    ensures Accepts(UpdateUserSchema, body) <==> PatchOf(body).Some?
  {
    AcceptsExactly(UpdateUserSchema, body);
    if PatchOf(body).Some? {
      forall k | k in Json.Keys(body) ensures k in PatchKeys {
        var i :| 0 <= i < |body| && body[i].0 == k;
      }
    }
    if Accepts(UpdateUserSchema, body) {
      forall i | 0 <= i < |body| ensures body[i].0 in PatchKeys {
        assert body[i].0 in Json.Keys(body);
      }
    }
  }

  /** The empty object is a valid update body: it reaches the handler as an empty patch. */
  lemma UpdateAcceptsEmpty()
    ensures Accepts(UpdateUserSchema, [])
    ensures PatchOf([]) == Some([])
  {
    AcceptsExactly(UpdateUserSchema, []);
  }

  /** What the gateway does with a request before any handler runs. */
  datatype Rejection = Forbidden | MissingParameter | InvalidBody(violations: seq<Violation>)

  /** The request reaching a method: whether it carries a valid API key, the path parameter, the
      parsed body. The key is checked first, then the parameter, then the body. */
  function Admit(m: Method, apiKeySecretName: Option<string>, validKey: bool, username: Option<string>, body: Json.Object): (r: Option<Rejection>)
    ensures r == Some(Forbidden) <==> ApiKeyRequired(m, apiKeySecretName) && !validKey
    ensures r.None? <==>
      && (ApiKeyRequired(m, apiKeySecretName) ==> validKey)
      && (RequiresUsername(m) ==> username.Some?)
      && (m == Post ==> UserOf(body).Some?)
      && (m == Patch ==> PatchOf(body).Some?)
    ensures m == Get ==> r != Some(Forbidden)
  {
    CreateAcceptsUsers(body);
    UpdateAcceptsPatches(body);
    if ApiKeyRequired(m, apiKeySecretName) && !validKey then Some(Forbidden)
    else if RequiresUsername(m) && username.None? then Some(MissingParameter)
    else if m == Post && !Accepts(CreateUserSchema, body) then Some(InvalidBody(Validate(CreateUserSchema, body)))
    else if m == Patch && !Accepts(UpdateUserSchema, body) then Some(InvalidBody(Validate(UpdateUserSchema, body)))
    else None
  }
}

=== FILE: joi.dfy ===
/** The subset of Joi object validation the container routes use: string members with
    `required`, `min`, `max`, `alphanum` and `email` rules, unknown members refused, every
    violation reported (not only the first), and the message text the validation middleware
    answers with. The email syntax check is a parameter. */
module Joi {
  import opened Wrappers
  import opened Strings
  import Json

  datatype Rule = Min(limit: nat) | Max(limit: nat) | Alphanum | EmailAddress

  /** `key: Joi.string()` followed by its rules in declaration order, and whether it is `.required()`. */
  datatype KeySchema = KeySchema(key: string, required: bool, rules: seq<Rule>)

  type Schema = seq<KeySchema>

  datatype Violation =
    | Required(key: string)
    | NotAllowed(key: string)
    | NotString(key: string)
    | EmptyString(key: string)
    | TooShort(key: string, limit: nat)
    | TooLong(key: string, limit: nat)
    | NotAlphanum(key: string)
    | NotEmail(key: string)

  function Quoted(key: string): string
  {
    "\"" + key + "\""
  }

  /** Joi's default message for each violation: the quoted key, then the complaint. */
  function Message(v: Violation): string
  {
    Quoted(v.key) + Complaint(v)
  }

  function Complaint(v: Violation): string
  {
    match v
    case Required(_) => " is required"
    case NotAllowed(_) => " is not allowed"
    case NotString(_) => " must be a string"
    case EmptyString(_) => " is not allowed to be empty"
    case TooShort(_, n) => " length must be at least " + NatToString(n) + " characters long"
    case TooLong(_, n) => " length must be less than or equal to " + NatToString(n) + " characters long"
    case NotAlphanum(_) => " must only contain alpha-numeric characters"
    case NotEmail(_) => " must be a valid email"
  }

  predicate Passes(rule: Rule, s: string, isEmail: string -> bool)
  {
    match rule
    case Min(n) => Utf16Length(s) >= n
    case Max(n) => Utf16Length(s) <= n
    case Alphanum => IsAlnum(s)
    case EmailAddress => isEmail(s)
  }

  function Broken(key: string, rule: Rule): Violation
  {
    match rule
    case Min(n) => TooShort(key, n)
    case Max(n) => TooLong(key, n)
    case Alphanum => NotAlphanum(key)
    case EmailAddress => NotEmail(key)
  }

  /** The string meets every rule. */
  predicate AllPass(rules: seq<Rule>, s: string, isEmail: string -> bool)
  {
    |rules| == 0 || (Passes(rules[0], s, isEmail) && AllPass(rules[1..], s, isEmail))
  }

  /** One violation per rule the string breaks, in rule order. */
  function RuleViolations(key: string, rules: seq<Rule>, s: string, isEmail: string -> bool): (r: seq<Violation>)
    ensures |r| == 0 <==> AllPass(rules, s, isEmail)
    ensures forall i :: 0 <= i < |r| ==> r[i].key == key && !r[i].Required? && !r[i].NotAllowed?
  {
    if |rules| == 0 then []
    else
      var rest := RuleViolations(key, rules[1..], s, isEmail);
      (if Passes(rules[0], s, isEmail) then [] else [Broken(key, rules[0])]) + rest
  }

  /** The violations of a present member: a non-string stops there, so does the empty string
      (Joi strings refuse `''`), otherwise every broken rule. */
  function ValueViolations(ks: KeySchema, v: Json.Value, isEmail: string -> bool): (r: seq<Violation>)
    ensures |r| == 0 <==> v.Str? && v.s != "" && AllPass(ks.rules, v.s, isEmail)
    ensures forall i :: 0 <= i < |r| ==> r[i].key == ks.key && !r[i].Required? && !r[i].NotAllowed?
  {
    match v
    case NonString => [NotString(ks.key)]
    case Str(s) => if s == "" then [EmptyString(ks.key)] else RuleViolations(ks.key, ks.rules, s, isEmail)
  }

  /** What a body's member does to one key of the schema. */
  function KeyViolations(ks: KeySchema, body: Json.Object, isEmail: string -> bool): seq<Violation>
  {
    match Json.Get(body, ks.key)
    case None => if ks.required then [Required(ks.key)] else []
    case Some(v) => ValueViolations(ks, v, isEmail)
  }

  /** The schema's keys in declaration order, each with its violations. */
  function KnownViolations(schema: Schema, body: Json.Object, isEmail: string -> bool): seq<Violation>
  {
    if |schema| == 0 then [] else KeyViolations(schema[0], body, isEmail) + KnownViolations(schema[1..], body, isEmail)
  }

  function SchemaKeys(schema: Schema): set<string>
  {
    set i | 0 <= i < |schema| :: schema[i].key
  }

  /** The body's members the schema does not declare, in body order. */
  function UnknownViolations(schema: Schema, members: seq<(string, Json.Value)>): seq<Violation>
  {
    if |members| == 0 then []
    else (if members[0].0 in SchemaKeys(schema) then [] else [NotAllowed(members[0].0)]) + UnknownViolations(schema, members[1..])
  }

  /** Everything wrong with a body: declared keys first, in schema order, then unknown members. */
  function Validate(schema: Schema, body: Json.Object, isEmail: string -> bool): seq<Violation>
  {
    KnownViolations(schema, body, isEmail) + UnknownViolations(schema, body)
  }

  /** The part of a request a validator middleware checks. */
  datatype Container = Body | Params

  function Preamble(c: Container): string
  {
    match c
    case Body => "Error validating request body. "
    case Params => "Error validating request params. "
  }

  /** The text the validation middleware answers a failed container with. */
  function ErrorText(container: Container, violations: seq<Violation>): string
  {
    Preamble(container) + Join(". ", MessagesOf(violations)) + "."
  }

  function MessagesOf(violations: seq<Violation>): seq<string>
  {
    if |violations| == 0 then [] else [Message(violations[0])] + MessagesOf(violations[1..])
  }

  // ---------------------------------------------------------------------------------------------
  // What the reports mean

  /** A member is accepted for one key exactly when it meets the key's rules. */
  predicate KeyAccepts(ks: KeySchema, body: Json.Object, isEmail: string -> bool)
  {
    match Json.Get(body, ks.key)
    case None => !ks.required
    case Some(v) => v.Str? && v.s != "" && AllPass(ks.rules, v.s, isEmail)
  }

  lemma {:induction false} KnownViolationsEmpty(schema: Schema, body: Json.Object, isEmail: string -> bool)
    ensures |KnownViolations(schema, body, isEmail)| == 0 <==> forall i :: 0 <= i < |schema| ==> KeyAccepts(schema[i], body, isEmail)
    decreases |schema|
  {
    if |schema| > 0 {
      KnownViolationsEmpty(schema[1..], body, isEmail);
      assert forall i :: 0 < i < |schema| ==> schema[1..][i - 1] == schema[i];
    }
  }

  lemma {:induction false} UnknownViolationsContent(schema: Schema, members: seq<(string, Json.Value)>)
    ensures forall v :: v in UnknownViolations(schema, members) ==> v.NotAllowed?
    ensures forall k :: NotAllowed(k) in UnknownViolations(schema, members) <==> k in Json.Keys(members) && k !in SchemaKeys(schema)
    decreases |members|
  {
    if |members| > 0 {
      var rest := members[1..];
      UnknownViolationsContent(schema, rest);
      assert Json.Keys(members) == {members[0].0} + Json.Keys(rest) by {
        forall i | 0 < i < |members| ensures members[i].0 in Json.Keys(rest) {
          assert rest[i - 1].0 == members[i].0;
        }
      }
    }
  }

  lemma {:induction false} UnknownViolationsNone(schema: Schema, members: seq<(string, Json.Value)>)
    requires Json.Keys(members) <= SchemaKeys(schema)
    ensures UnknownViolations(schema, members) == []
    decreases |members|
  {
    if |members| > 0 {
      assert members[0].0 in Json.Keys(members);
      assert Json.Keys(members[1..]) <= Json.Keys(members) by {
        forall k | k in Json.Keys(members[1..]) ensures k in Json.Keys(members) {
          var i :| 0 <= i < |members[1..]| && members[1..][i].0 == k;
          assert members[i + 1].0 == k;
        }
      }
      UnknownViolationsNone(schema, members[1..]);
    }
  }

  /** A body passes exactly when every declared key accepts its member (or its absence) and the
      body has no member the schema does not declare. */
  lemma ValidateEmpty(schema: Schema, body: Json.Object, isEmail: string -> bool)
    ensures |Validate(schema, body, isEmail)| == 0 <==>
      (forall i :: 0 <= i < |schema| ==> KeyAccepts(schema[i], body, isEmail)) && Json.Keys(body) <= SchemaKeys(schema)
  {
    KnownViolationsEmpty(schema, body, isEmail);
    UnknownViolationsContent(schema, body);
    if !(Json.Keys(body) <= SchemaKeys(schema)) {
      var k :| k in Json.Keys(body) && k !in SchemaKeys(schema);
      assert NotAllowed(k) in UnknownViolations(schema, body);
    } else {
      UnknownViolationsNone(schema, body);
    }
  }

  /** Missing required keys: the `Required` reports are exactly the required keys the body lacks,
      in schema order. */
  function Missing(schema: Schema, body: Json.Object): seq<string>
  {
    if |schema| == 0 then []
    else (if schema[0].required && schema[0].key !in Json.Keys(body) then [schema[0].key] else []) + Missing(schema[1..], body)
  }

  function RequiredReports(violations: seq<Violation>): seq<string>
  {
    if |violations| == 0 then []
    else (if violations[0].Required? then [violations[0].key] else []) + RequiredReports(violations[1..])
  }

  lemma {:induction false} RequiredReportsAppend(a: seq<Violation>, b: seq<Violation>)
    ensures RequiredReports(a + b) == RequiredReports(a) + RequiredReports(b)
    decreases |a|
  {
    if |a| == 0 {
      assert a + b == b;
    } else {
      assert (a + b)[0] == a[0];
      assert (a + b)[1..] == a[1..] + b;
      RequiredReportsAppend(a[1..], b);
    }
  }

  lemma {:induction false} NoRequiredReports(vs: seq<Violation>)
    requires forall i :: 0 <= i < |vs| ==> !vs[i].Required?
    ensures RequiredReports(vs) == []
    decreases |vs|
  {
    if |vs| > 0 {
      assert forall i :: 0 < i < |vs| ==> vs[1..][i - 1] == vs[i];
      NoRequiredReports(vs[1..]);
    }
  }

  lemma {:induction false} KnownRequiredReports(schema: Schema, body: Json.Object, isEmail: string -> bool)
    ensures RequiredReports(KnownViolations(schema, body, isEmail)) == Missing(schema, body)
    decreases |schema|
  {
    if |schema| > 0 {
      var ks := schema[0];
      var here := KeyViolations(ks, body, isEmail);
      RequiredReportsAppend(here, KnownViolations(schema[1..], body, isEmail));
      KnownRequiredReports(schema[1..], body, isEmail);
      match Json.Get(body, ks.key)
      case None =>
        if ks.required {
          assert RequiredReports(here) == [ks.key] + RequiredReports([]);
        }
      case Some(v) =>
        NoRequiredReports(here);
    }
  }

  lemma {:induction false} UnknownRequiredReports(schema: Schema, members: seq<(string, Json.Value)>)
    ensures RequiredReports(UnknownViolations(schema, members)) == []
  {
    UnknownViolationsContent(schema, members);
    var vs := UnknownViolations(schema, members);
    assert forall i :: 0 <= i < |vs| ==> vs[i] in vs;
    NoRequiredReports(vs);
  }

  /** Every missing required key is reported, in schema order, and nothing else is reported as
      missing. */
  lemma RequiredInSchemaOrder(schema: Schema, body: Json.Object, isEmail: string -> bool)
    ensures RequiredReports(Validate(schema, body, isEmail)) == Missing(schema, body)
  {
    RequiredReportsAppend(KnownViolations(schema, body, isEmail), UnknownViolations(schema, body));
    KnownRequiredReports(schema, body, isEmail);
    UnknownRequiredReports(schema, body);
  }

  /** An undeclared member is refused by name, and only undeclared members are refused that way. */
  lemma UnknownRefusedByName(schema: Schema, body: Json.Object, isEmail: string -> bool, k: string)
    ensures NotAllowed(k) in Validate(schema, body, isEmail) <==> k in Json.Keys(body) && k !in SchemaKeys(schema)
  {
    UnknownViolationsContent(schema, body);
    KnownNeverRefuses(schema, body, isEmail);
  }

  lemma {:induction false} KnownNeverRefuses(schema: Schema, body: Json.Object, isEmail: string -> bool)
    ensures forall v :: v in KnownViolations(schema, body, isEmail) ==> !v.NotAllowed?
    decreases |schema|
  {
    if |schema| > 0 {
      KnownNeverRefuses(schema[1..], body, isEmail);
      var here := KeyViolations(schema[0], body, isEmail);
      assert forall v :: v in here ==> !v.NotAllowed?;
    }
  }
}

=== FILE: json.dfy ===
/** Parsed JSON request bodies, as far as the validators look at them. */
module Json {
  import opened Wrappers

  /** A member value. The validators only ask whether a value is a string, so numbers, booleans,
      null, arrays and nested objects are not told apart. */
  datatype Value = Str(s: string) | NonString

  predicate DistinctKeys(members: seq<(string, Value)>)
  {
    forall i, j :: 0 <= i < j < |members| ==> members[i].0 != members[j].0
  }

  /** A JSON object: its members in insertion order (the order `Object.entries` yields), keys distinct. */
  type Object = members: seq<(string, Value)> | DistinctKeys(members)

  function Keys(members: seq<(string, Value)>): set<string>
  {
    set i | 0 <= i < |members| :: members[i].0
  }

  /** The member named `key`, if any. */
  function Get(members: seq<(string, Value)>, key: string): (r: Option<Value>)
    ensures r.Some? <==> key in Keys(members)
    ensures r.Some? ==> exists i :: 0 <= i < |members| && members[i] == (key, r.value)
  {
    if |members| == 0 then None
    else if members[0].0 == key then Some(members[0].1)
    else
      var r := Get(members[1..], key);
      assert Keys(members) == {members[0].0} + Keys(members[1..]) by {
        forall k | k in Keys(members) ensures k in {members[0].0} + Keys(members[1..]) {
          var i :| 0 <= i < |members| && members[i].0 == k;
          if i > 0 { assert members[1..][i - 1].0 == k; }
        }
      }
      if r.Some? then
        var i :| 0 <= i < |members[1..]| && members[1..][i] == (key, r.value);
        assert members[i + 1] == (key, r.value);
        r
      else r
  }

  /** In an object, the member at position `i` is the one found by its name. */
  lemma {:induction false} GetAt(members: seq<(string, Value)>, i: int)
    requires DistinctKeys(members) && 0 <= i < |members|
    ensures Get(members, members[i].0) == Some(members[i].1)
    decreases |members|
  {
    if i > 0 {
      assert DistinctKeys(members[1..]) by {
        forall a, b | 0 <= a < b < |members[1..]| ensures members[1..][a].0 != members[1..][b].0 {
          assert members[a + 1].0 != members[b + 1].0;
        }
      }
      assert members[0].0 != members[i].0;
      GetAt(members[1..], i - 1);
    }
  }

  /** The string member named `key`, or `None` when it is absent or not a string. */
  function GetString(members: seq<(string, Value)>, key: string): Option<string>
  {
    match Get(members, key)
    case Some(Str(s)) => Some(s)
    case _ => None
  }
}

=== FILE: lambdas.dfy ===
/** The three Lambda handlers of the serverless service
    (packages/glue-etl/src/lambdas/users-create.ts,
    packages/rest-api-serverless/src/lambdas/users-get.ts,
    packages/rest-api-serverless/src/lambdas/users-update.ts): input checks, one store call,
    and the `catch` that answers an `APIError` with its own status and message and anything
    else with 500. `JSON.parse` is given as a parameter: what it makes of the body text. */
module Lambdas {
  import opened Wrappers
  import opened Users
  import opened Dynamo
  import opened Records
  import opened Api
  import ServerlessStore

  /** What `JSON.parse(event.body)` produces: the value the handler passes on, or the
      `SyntaxError` it throws (shown as it would be serialised). */
  datatype Parsed<+T> = Value(value: T) | SyntaxError(shown: string)

  /** The parts of an `APIGatewayProxyEvent` the handlers read. */
  datatype Event = Event(username: Option<string>, body: Option<string>, origin: Option<string>)

  /** A handled invocation: the response and the table afterwards. */
  datatype Outcome = Outcome(response: Response, table: Table)

  /** What escapes a handler's `try` block. */
  datatype Thrown = Raised(apiError: APIError) | Other(shown: string)

  /** The shared `catch` block. */
  function Caught(e: Thrown, origin: Option<string>): (r: Response)
    ensures r.body.MessageBody? <==> e.Raised?
  {
    match e
    case Raised(err) => APIGatewayResponse(err.httpStatus, MessageBody(err.message), origin)
    case Other(shown) => APIGatewayResponse(INTERNAL_SERVER_ERROR, ThrownBody(shown), origin)
  }

  /** `!event.body`: the body is absent or the empty string. */
  predicate MissingBody(e: Event)
  {
    e.body.None? || e.body.value == ""
  }

  const MissingBodyError := APIError("missing request body", BAD_REQUEST)
  const MissingUsernameError := APIError("missing path parameter :user", BAD_REQUEST)

  /** `users-create` handler. */
  function Create(t: Table, e: Event, parse: string -> Parsed<User>, injected: Option<SdkError>): (r: Outcome)
    ensures r.response.allowOrigin == AllowOrigin(e.origin)
    ensures MissingBody(e) ==> r == Outcome(Response(BAD_REQUEST, MessageBody("missing request body"), AllowOrigin(e.origin)), t)
    ensures r.response.statusCode == CREATED <==>
      !MissingBody(e) && parse(e.body.value).Value? && injected.None? && KeyOf(parse(e.body.value).value.username) !in t
    ensures r.response.statusCode == CREATED ==>
      var u := parse(e.body.value).value;
      r.response.body == MessageBody("user created") && r.table == t[KeyOf(u.username) := ItemOf(u)]
    ensures r.response.statusCode != CREATED ==> r.table == t
    ensures r.response.statusCode in {CREATED, BAD_REQUEST, INTERNAL_SERVER_ERROR}
    ensures !MissingBody(e) && parse(e.body.value).Value? && injected.None? && KeyOf(parse(e.body.value).value.username) in t ==>
      r.response.statusCode == BAD_REQUEST && r.response.body == MessageBody("username exists")
    ensures !MissingBody(e) && parse(e.body.value).SyntaxError? ==>
      r.response.statusCode == INTERNAL_SERVER_ERROR && r.response.body == ThrownBody(parse(e.body.value).shown)
    ensures Profiles(t) ==> Profiles(r.table)
  {
    if MissingBody(e) then Outcome(Caught(Raised(MissingBodyError), e.origin), t)
    else
      match parse(e.body.value)
      case SyntaxError(shown) => Outcome(Caught(Other(shown), e.origin), t)
      case Value(user) =>
        match ServerlessStore.CreateUser(t, user, injected)
        case Success(t') => Outcome(APIGatewayResponse(CREATED, MessageBody("user created"), e.origin), t')
        case Failure(err) => Outcome(Caught(Raised(err), e.origin), t)
  }

  /** `users-get` handler. Nothing is written. */
  function Get(t: Table, e: Event, injected: Option<SdkError>): (r: Response)
    requires Profiles(t)
    ensures r.allowOrigin == AllowOrigin(e.origin)
    ensures e.username.None? ==> r.statusCode == BAD_REQUEST && r.body == MessageBody("missing path parameter :user")
    ensures r.statusCode == OK <==> e.username.Some? && injected.None? && KeyOf(e.username.value) in t
    ensures r.statusCode == OK ==> r.body == UserBody(ToUser(e.username.value, t[KeyOf(e.username.value)]))
    ensures e.username.Some? && injected.None? && KeyOf(e.username.value) !in t ==>
      r.statusCode == NOT_FOUND && r.body == MessageBody("username not found")
    ensures e.username.Some? && injected.Some? ==> r.statusCode == INTERNAL_SERVER_ERROR
    ensures r.statusCode in {OK, BAD_REQUEST, NOT_FOUND, INTERNAL_SERVER_ERROR}
  {
    match e.username
    case None => Caught(Raised(MissingUsernameError), e.origin)
    case Some(username) =>
      match ServerlessStore.GetUser(t, username, injected)
      case Success(user) => APIGatewayResponse(OK, UserBody(user), e.origin)
      case Failure(err) => Caught(Raised(err), e.origin)
  }

  /** `users-update` handler: the username is checked before the body. */
  function Update(t: Table, e: Event, parse: string -> Parsed<Patch>, injected: Option<SdkError>, validation: ValidationText): (r: Outcome)
    ensures r.response.allowOrigin == AllowOrigin(e.origin)
    ensures e.username.None? ==>
      r == Outcome(Response(BAD_REQUEST, MessageBody("missing path parameter :user"), AllowOrigin(e.origin)), t)
    ensures e.username.Some? && MissingBody(e) ==>
      r == Outcome(Response(BAD_REQUEST, MessageBody("missing request body"), AllowOrigin(e.origin)), t)
    ensures r.response.statusCode == OK <==>
      && e.username.Some? && !MissingBody(e) && parse(e.body.value).Value? && injected.None?
      && |parse(e.body.value).value| > 0 && KeyOf(e.username.value) in t
    ensures r.response.statusCode == OK ==>
      var k := KeyOf(e.username.value);
      r.response.body == MessageBody("user updated") && r.table == t[k := PatchedItem(t[k], parse(e.body.value).value)]
    ensures r.response.statusCode != OK ==> r.table == t
    ensures r.response.statusCode in {OK, BAD_REQUEST, NOT_FOUND, INTERNAL_SERVER_ERROR}
    ensures (e.username.Some? && !MissingBody(e) && parse(e.body.value).Value? && injected.None?
             && |parse(e.body.value).value| > 0 && KeyOf(e.username.value) !in t) ==>
      r.response.statusCode == NOT_FOUND && r.response.body == MessageBody("username not found")
    ensures e.username.Some? && !MissingBody(e) && parse(e.body.value).SyntaxError? ==>
      r.response.statusCode == INTERNAL_SERVER_ERROR && r.response.body == ThrownBody(parse(e.body.value).shown)
    ensures (e.username.Some? && !MissingBody(e) && parse(e.body.value).Value? && injected.None?
             && |parse(e.body.value).value| == 0) ==>
      r.response.statusCode == INTERNAL_SERVER_ERROR
      && r.response.body == MessageBody("cannot update user. " + Printed("ValidationException", validation.message))
    ensures Profiles(t) ==> Profiles(r.table)
  {
    match e.username
    case None => Outcome(Caught(Raised(MissingUsernameError), e.origin), t)
    case Some(username) =>
      if MissingBody(e) then Outcome(Caught(Raised(MissingBodyError), e.origin), t)
      else
        match parse(e.body.value)
        case SyntaxError(shown) => Outcome(Caught(Other(shown), e.origin), t)
        case Value(p) =>
          match ServerlessStore.UpdateUser(t, username, p, injected, validation)
          case Success(t') => Outcome(APIGatewayResponse(OK, MessageBody("user updated"), e.origin), t')
          case Failure(err) => Outcome(Caught(Raised(err), e.origin), t)
  }
}

=== FILE: records.dfy ===
/** The key-value record mapper both store variants share: composite key derivation, the stored
    item of a user, its projection back to a user, and the update request built from a patch. */
module Records {
  import opened Wrappers
  import opened Strings
  import opened Users
  import opened Dynamo
  import UpdateExpression

  /** The composite key of a user's profile record. */
  function KeyOf(username: string): Key
  {
    Key("USER#" + username, "#PROFILE#" + username)
  }

  /** Distinct usernames address distinct records. */
  lemma KeyOfInjective(a: string, b: string)
    ensures KeyOf(a) == KeyOf(b) <==> a == b
  {
    if KeyOf(a) == KeyOf(b) {
      assert a == KeyOf(a).pk[5..];
      assert b == KeyOf(b).pk[5..];
    }
  }

  /** The put item of `createUser`: the key attributes followed by every field of the user but
      `username`, verbatim; an absent address is absent from the item. */
  function ItemOf(user: User): (item: Attrs)
    ensures ItemKey(item) == Some(KeyOf(user.username))
    ensures item.Keys == {PartitionKey, SortKey, "fullName", "email"} + (if user.address.Some? then {"address"} else {})
    ensures item["fullName"] == user.fullName && item["email"] == user.email
    ensures user.address.Some? ==> item["address"] == user.address.value
  {
    var k := KeyOf(user.username);
    var item := map[PartitionKey := k.pk, SortKey := k.sk, "fullName" := user.fullName, "email" := user.email];
    if user.address.Some? then item["address" := user.address.value] else item
  }

  /** A stored item a user can be read from. */
  predicate HasProfile(item: Attrs)
  {
    "fullName" in item && "email" in item
  }

  /** The table invariant the stores keep: every item has `fullName` and `email`. */
  predicate Profiles(t: Table)
  {
    forall k :: k in t ==> HasProfile(t[k])
  }

  /** The user `getUser` returns for a found item: the username argument and the item's
      `email`, `fullName` and `address`; the key attributes are dropped. */
  function ToUser(username: string, item: Attrs): User
    requires HasProfile(item)
  {
    User(username, item["fullName"], item["email"], if "address" in item then Some(item["address"]) else None)
  }

  /** Round trip of the record mapper: the item written for a user reads back as that user. */
  lemma ToUserItemOf(user: User)
    ensures HasProfile(ItemOf(user))
    ensures ToUser(user.username, ItemOf(user)) == user
  {
  }

  /** `Object.entries(props)` of a patch. */
  function Entries(p: Patch): (r: seq<(string, string)>)
    ensures |r| == |p|
    ensures forall i :: 0 <= i < |p| ==> r[i] == (FieldName(p[i].field), p[i].value)
    ensures UpdateExpression.DistinctKeys(r)
    ensures UpdateExpression.AllIdentifiers(r)
    ensures forall i :: 0 <= i < |r| ==> r[i].0 != PartitionKey && r[i].0 != SortKey
  {
    var r := seq(|p|, i requires 0 <= i < |p| => (FieldName(p[i].field), p[i].value));
    assert forall i, j :: 0 <= i < j < |p| ==> r[i].0 != r[j].0 by {
      forall i, j | 0 <= i < j < |p| ensures r[i].0 != r[j].0 {
        assert p[i].field != p[j].field;
      }
    }
    assert forall i :: 0 <= i < |r| ==> IsIdentifier(r[i].0) by {
      forall i | 0 <= i < |r| ensures IsIdentifier(r[i].0) {
        var n := r[i].0;
        assert n == "fullName" || n == "email" || n == "address";
      }
    }
    r
  }

  /** The attributes a patch assigns, as a map from attribute name to its new value. */
  function PatchMap(p: Patch): map<string, string>
  {
    AsMap(Entries(p))
  }

  /** The item a patch should leave behind: the patched attributes replaced, all others kept. */
  function PatchedItem(item: Attrs, p: Patch): Attrs
  {
    item + PatchMap(p)
  }

  /** The update request `updateUser` builds for a patch. */
  function UpdateFor(p: Patch): UpdateExpression.Update
  {
    UpdateExpression.Build(Entries(p))
  }

  /** How the table reads the request built for a patch: an empty patch is rejected as malformed,
      any other patch stands for exactly its entries, in order. */
  lemma InterpretUpdateFor(p: Patch)
    ensures |p| == 0 ==> Interpret(UpdateFor(p)).None?
    ensures |p| > 0 ==> Interpret(UpdateFor(p)) == Some(Entries(p))
  {
    InterpretBuild(Entries(p));
  }

  /** Every attribute a patch assigns is the name of a profile field. */
  lemma PatchMapKeys(p: Patch)
    ensures forall k :: k in PatchMap(p) ==> exists f :: k == FieldName(f)
  {
    var es := Entries(p);
    forall k | k in PatchMap(p) ensures exists f :: k == FieldName(f) {
      var i :| 0 <= i < |es| && es[i].0 == k;
      assert k == FieldName(p[i].field);
    }
  }

  /** What `PatchMap` holds for one field: the patch's value exactly when the patch mentions it. */
  lemma PatchMapAt(p: Patch, f: Field)
    ensures FieldName(f) in PatchMap(p) <==> Lookup(p, f).Some?
    ensures FieldName(f) in PatchMap(p) ==> PatchMap(p)[FieldName(f)] == Lookup(p, f).value
  {
    var es := Entries(p);
    var m := PatchMap(p);
    if FieldName(f) in m {
      var i :| 0 <= i < |es| && es[i].0 == FieldName(f);
      assert p[i].field == f;
    }
    if Lookup(p, f).Some? {
      var j :| 0 <= j < |p| && p[j] == Entry(f, Lookup(p, f).value);
      assert es[j] == (FieldName(f), Lookup(p, f).value);
      assert m[es[j].0] == es[j].1;
    }
  }

  /** What `PatchMap` holds: for each field, the patch's value exactly when the patch mentions it,
      and nothing else. */
  lemma PatchMapContent(p: Patch)
    ensures forall k :: k in PatchMap(p) ==> exists f :: k == FieldName(f)
    ensures forall f :: FieldName(f) in PatchMap(p) <==> Lookup(p, f).Some?
    ensures forall f :: FieldName(f) in PatchMap(p) ==> PatchMap(p)[FieldName(f)] == Lookup(p, f).value
  {
    PatchMapKeys(p);
    forall f ensures FieldName(f) in PatchMap(p) <==> Lookup(p, f).Some?
      ensures FieldName(f) in PatchMap(p) ==> PatchMap(p)[FieldName(f)] == Lookup(p, f).value
    {
      PatchMapAt(p, f);
    }
  }

  /** Applying the entries of a patch to an item, as the table does, yields `PatchedItem`. */
  lemma ApplyEntries(item: Attrs, p: Patch)
    ensures ApplySets(item, Entries(p)) == PatchedItem(item, p)
  {
    ApplySetsOverlay(item, Entries(p));
  }

  /** `ApplyEntries` for every item at once. */
  lemma ApplyEntriesEverywhere(p: Patch)
    ensures forall item :: ApplySets(item, Entries(p)) == PatchedItem(item, p)
  {
    forall item ensures ApplySets(item, Entries(p)) == PatchedItem(item, p) {
      ApplyEntries(item, p);
    }
  }

  /** A patch never removes `fullName` or `email`. */
  lemma PatchedKeepsProfile(p: Patch)
    ensures forall item :: HasProfile(item) ==> HasProfile(PatchedItem(item, p))
  {
  }

  /** One field of a patched item: the patch's value when it mentions the field, else the old one. */
  lemma {:induction false} PatchedField(item: Attrs, p: Patch, f: Field)
    ensures FieldName(f) in PatchedItem(item, p) <==> FieldName(f) in item || Lookup(p, f).Some?
    ensures Lookup(p, f).Some? ==> PatchedItem(item, p)[FieldName(f)] == Lookup(p, f).value
    ensures Lookup(p, f).None? && FieldName(f) in item ==> PatchedItem(item, p)[FieldName(f)] == item[FieldName(f)]
  {
    PatchMapAt(p, f);
  }

  /** Reading a user back after a patch gives the patched user: the record mapper and the patch
      semantics of the domain agree. */
  lemma {:induction false} ToUserPatched(username: string, item: Attrs, p: Patch)
    requires HasProfile(item)
    ensures HasProfile(PatchedItem(item, p))
    ensures ToUser(username, PatchedItem(item, p)) == Patched(ToUser(username, item), p)
  {
    PatchedField(item, p, FullName);
    PatchedField(item, p, Email);
    PatchedField(item, p, Address);
  }

  /** The update request built for a patch never assigns a key attribute, so neither the record's
      key nor the username it encodes can change through an update. */
  lemma UpdateKeepsKey(p: Patch, item: Attrs)
    ensures PartitionKey in item ==> PartitionKey in PatchedItem(item, p) && PatchedItem(item, p)[PartitionKey] == item[PartitionKey]
    ensures SortKey in item ==> SortKey in PatchedItem(item, p) && PatchedItem(item, p)[SortKey] == item[SortKey]
  {
    assert PartitionKey !in PatchMap(p) && SortKey !in PatchMap(p);
  }
}

=== FILE: serverless_api.dfy ===
/** The serverless service end to end: API Gateway's checks in front of the Lambda handlers.
    A body that passes the gateway's schema is parsed by the handler into the user or patch it
    describes. */
module ServerlessApi {
  import opened Wrappers
  import opened Users
  import opened Dynamo
  import opened Records
  import opened Api
  import opened Bodies
  import Json
  import Gateway
  import Lambdas

  datatype Answer = Refused(rejection: Gateway.Rejection) | Handled(response: Response)

  datatype Outcome = Outcome(answer: Answer, table: Table)

  /** The response status a client sees: 403 for a missing key, 400 for a gateway validation
      failure, otherwise the handler's. */
  function Status(a: Answer): int
  {
    match a
    case Refused(Forbidden) => FORBIDDEN
    case Refused(_) => BAD_REQUEST
    case Handled(r) => r.statusCode
  }

  /** The deployment's configuration and one request to it. */
  datatype Request = Request(
    verb: Gateway.Method, validKey: bool, username: Option<string>, body: Json.Object, origin: Option<string>)

  /** The event a handler sees. The gateway has already parsed the body, so the text placed in
      `body` only has to be non-empty: the handlers read it through `MissingBody`, and the parse
      function `Serve` gives them returns the parsed body whatever the text. */
  function EventOf(req: Request): Lambdas.Event
  {
    Lambdas.Event(req.username, Some("{...}"), req.origin)
  }

  /** A request through the gateway and, when admitted, its handler. */
  function Serve(t: Table, apiKeySecretName: Option<string>, req: Request, injected: Option<SdkError>, validation: ValidationText): (r: Outcome)
    requires Profiles(t)
    ensures Profiles(r.table)
    ensures r.answer.Refused? ==> r.table == t
    ensures Status(r.answer) == FORBIDDEN <==> Gateway.ApiKeyRequired(req.verb, apiKeySecretName) && !req.validKey
    ensures req.verb == Gateway.Get ==> r.table == t
  {
    match Gateway.Admit(req.verb, apiKeySecretName, req.validKey, req.username, req.body)
    case Some(rejection) => Outcome(Refused(rejection), t)
    case None =>
      match req.verb
      case Post =>
        var user := UserOf(req.body).value;
        var o := Lambdas.Create(t, EventOf(req), _ => Lambdas.Value(user), injected);
        Outcome(Handled(o.response), o.table)
      case Patch =>
        var p := PatchOf(req.body).value;
        var o := Lambdas.Update(t, EventOf(req), _ => Lambdas.Value(p), injected, validation);
        Outcome(Handled(o.response), o.table)
      case Get =>
        Outcome(Handled(Lambdas.Get(t, EventOf(req), injected)), t)
  }

  /** An update body the gateway accepts can still fail in the handler: the empty object passes the
      schema, reaches the store as an empty patch, builds `SET `, and is answered 500. */
  lemma EmptyPatchIsServerError(t: Table, apiKeySecretName: Option<string>, username: string, origin: Option<string>, validation: ValidationText)
    requires Profiles(t)
    ensures
      var r := Serve(t, apiKeySecretName, Request(Gateway.Patch, true, Some(username), [], origin), None, validation);
      && r.answer == Handled(Response(INTERNAL_SERVER_ERROR,
           MessageBody("cannot update user. " + Printed("ValidationException", validation.message)), AllowOrigin(origin)))
      && r.table == t
  {
    Gateway.UpdateAcceptsEmpty();
  }
}

=== FILE: serverless_api_spec.dfy ===
/** The serverless service's example scenario, stated on the model: create a user, create it
    again, patch its address, read it back, read a username that was never created, and call a
    keyed method without a key. */
module ServerlessApiSpec {
  import opened Wrappers
  import opened Users
  import opened Dynamo
  import opened Records
  import opened Api
  import opened Bodies
  import opened ServerlessApi
  import Json
  import Gateway

  function CreateBody(u: string): Json.Object
  {
    [("username", Json.Str(u)), ("fullName", Json.Str("A B")), ("email", Json.Str("a@b.com"))]
  }

  const MarsBody: Json.Object := [("address", Json.Str("Mars"))]

  lemma CreateBodyUser(u: string)
    ensures UserOf(CreateBody(u)) == Some(User(u, "A B", "a@b.com", None))
  {
    var body := CreateBody(u);
    Json.GetAt(body, 0);
    Json.GetAt(body, 1);
    Json.GetAt(body, 2);
    assert Json.Keys(body) == {"username", "fullName", "email"};
    assert Json.Get(body, "address") == None;
  }

  lemma MarsBodyPatch()
    ensures PatchOf(MarsBody) == Some([Entry(Address, "Mars")])
  {
    assert MarsBody[0].0 in PatchKeys && MarsBody[0].1.Str?;
    var p := PatchOf(MarsBody).value;
    assert FieldName(p[0].field) == "address";
    assert p[0].field == Address;
    assert |p| == 1 && MarsBody[0].1 == Json.Str(p[0].value);
    assert p[0] == Entry(Address, "Mars");
    assert p == [p[0]];
  }

  /** Creating a new username answers 201 and stores the user; creating it again answers 400
      `username exists` and leaves the table as it was. */
  lemma CreateTwice(t: Table, secret: Option<string>, u: string, origin: Option<string>, v: ValidationText)
    requires Profiles(t) && KeyOf(u) !in t
    ensures
      var first := Serve(t, secret, Request(Gateway.Post, true, None, CreateBody(u), origin), None, v);
      && first.answer == Handled(Response(CREATED, MessageBody("user created"), AllowOrigin(origin)))
      && first.table == t[KeyOf(u) := ItemOf(User(u, "A B", "a@b.com", None))]
      && var second := Serve(first.table, secret, Request(Gateway.Post, true, None, CreateBody(u), origin), None, v);
      && second.answer == Handled(Response(BAD_REQUEST, MessageBody("username exists"), AllowOrigin(origin)))
      && second.table == first.table
  {
    CreateBodyUser(u);
    Gateway.CreateAcceptsUsers(CreateBody(u));
  }

  /** Patching the address of a stored `A B` profile answers 200 and leaves that profile with the
      new address. */
  lemma PatchMars(t: Table, secret: Option<string>, u: string, origin: Option<string>, v: ValidationText)
    requires Profiles(t) && KeyOf(u) in t && ToUser(u, t[KeyOf(u)]) == User(u, "A B", "a@b.com", None)
    ensures
      var r := Serve(t, secret, Request(Gateway.Patch, true, Some(u), MarsBody, origin), None, v);
      && r.answer == Handled(Response(OK, MessageBody("user updated"), AllowOrigin(origin)))
      && Profiles(r.table)
      && KeyOf(u) in r.table
      && ToUser(u, r.table[KeyOf(u)]) == User(u, "A B", "a@b.com", Some("Mars"))
      && r.table.Keys == t.Keys
  {
    var p: Patch := [Entry(Address, "Mars")];
    MarsBodyPatch();
    Gateway.UpdateAcceptsPatches(MarsBody);
    var r := Serve(t, secret, Request(Gateway.Patch, true, Some(u), MarsBody, origin), None, v);
    assert r.table == t[KeyOf(u) := PatchedItem(t[KeyOf(u)], p)];
    ToUserPatched(u, t[KeyOf(u)], p);
    assert Lookup(p, Address) == Some("Mars") && Lookup(p, FullName) == None && Lookup(p, Email) == None;
  }

  /** Reading a stored username answers 200 with the stored profile. */
  lemma GetStored(t: Table, secret: Option<string>, u: string, user: User, origin: Option<string>, v: ValidationText)
    requires Profiles(t) && KeyOf(u) in t && ToUser(u, t[KeyOf(u)]) == user
    ensures Serve(t, secret, Request(Gateway.Get, true, Some(u), [], origin), None, v).answer
      == Handled(Response(OK, UserBody(user), AllowOrigin(origin)))
  {
  }

  /** Reading a username that is not stored answers 404 `username not found`. */
  lemma GetMissing(t: Table, secret: Option<string>, u: string, origin: Option<string>, v: ValidationText)
    requires Profiles(t) && KeyOf(u) !in t
    ensures Serve(t, secret, Request(Gateway.Get, true, Some(u), [], origin), None, v).answer
      == Handled(Response(NOT_FOUND, MessageBody("username not found"), AllowOrigin(origin)))
  {
  }

  /** Patching a username that is not stored answers 404 `username not found` and changes nothing. */
  lemma PatchMissing(t: Table, secret: Option<string>, u: string, origin: Option<string>, v: ValidationText)
    requires Profiles(t) && KeyOf(u) !in t
    ensures
      var r := Serve(t, secret, Request(Gateway.Patch, true, Some(u), MarsBody, origin), None, v);
      && r.answer == Handled(Response(NOT_FOUND, MessageBody("username not found"), AllowOrigin(origin)))
      && r.table == t
  {
    MarsBodyPatch();
    Gateway.UpdateAcceptsPatches(MarsBody);
  }

  /** After the create, patching the address answers 200 and a read gives the created fields with
      the new address; a username that was never created is answered 404. */
  lemma PatchThenGet(t: Table, secret: Option<string>, u: string, origin: Option<string>, v: ValidationText)
    requires Profiles(t) && KeyOf(u) !in t && u != "non-existent"
    ensures
      var created := t[KeyOf(u) := ItemOf(User(u, "A B", "a@b.com", None))];
      && Profiles(created)
      && var patched := Serve(created, secret, Request(Gateway.Patch, true, Some(u), MarsBody, origin), None, v);
      && patched.answer == Handled(Response(OK, MessageBody("user updated"), AllowOrigin(origin)))
      && Profiles(patched.table)
      && Serve(patched.table, secret, Request(Gateway.Get, true, Some(u), [], origin), None, v).answer
         == Handled(Response(OK, UserBody(User(u, "A B", "a@b.com", Some("Mars"))), AllowOrigin(origin)))
      && (KeyOf("non-existent") !in t ==>
          Serve(patched.table, secret, Request(Gateway.Get, true, Some("non-existent"), [], origin), None, v).answer
          == Handled(Response(NOT_FOUND, MessageBody("username not found"), AllowOrigin(origin))))
  {
    var user := User(u, "A B", "a@b.com", None);
    var created := t[KeyOf(u) := ItemOf(user)];
    ToUserItemOf(user);
    assert Profiles(created);
    PatchMars(created, secret, u, origin, v);
    var patched := Serve(created, secret, Request(Gateway.Patch, true, Some(u), MarsBody, origin), None, v).table;
    GetStored(patched, secret, u, User(u, "A B", "a@b.com", Some("Mars")), origin, v);
    KeyOfInjective(u, "non-existent");
    if KeyOf("non-existent") !in t {
      assert KeyOf("non-existent") !in patched;
      GetMissing(patched, secret, "non-existent", origin, v);
    }
  }

  /** With a key secret configured, POST and PATCH without a valid key are refused with 403 and
      change nothing; GET is never refused for want of a key. */
  lemma KeyRequired(t: Table, secret: string, req: Request, injected: Option<SdkError>, v: ValidationText)
    requires Profiles(t) && !req.validKey
    ensures req.verb != Gateway.Get ==>
      Serve(t, Some(secret), req, injected, v) == Outcome(Refused(Gateway.Forbidden), t)
    ensures req.verb == Gateway.Get ==> Status(Serve(t, Some(secret), req, injected, v).answer) != FORBIDDEN
  {
  }
}

=== FILE: serverless_store.dfy ===
/** The serverless `UserStoreDynamoDB`
    (packages/rest-api-serverless/src/store/user/user-store-dynamodb.ts): conditional create,
    failing get, conditional update, every failure classified into an `APIError`. */
module ServerlessStore {
  import opened Wrappers
  import opened Users
  import opened Dynamo
  import opened Records
  import opened Api

  /** The put `createUser` sends: the user's item, only if no item has its key. */
  function CreateRequest(user: User): PutRequest
  {
    PutRequest(ItemOf(user), Some(KeyAbsent))
  }

  /** A store failure during create: a failed condition means the username is taken, anything
      else is a server error that carries the failure's text. A put is never malformed. */
  function CreateFailure(f: Refusal): APIError
    requires !f.Malformed?
  {
    if f.IsConditionFailure() then APIError("username exists", BAD_REQUEST)
    else APIError("cannot create user. " + f.error.Shown(), INTERNAL_SERVER_ERROR)
  }

  /** `createUser`. On success the table holds the user's item at the user's key; otherwise the
      table is unchanged. */
  function CreateUser(t: Table, user: User, injected: Option<SdkError>): (r: Result<Table, APIError>)
    ensures injected.None? ==> (r.Success? <==> KeyOf(user.username) !in t)
    ensures r.Success? ==> injected.None? && r.value == t[KeyOf(user.username) := ItemOf(user)]
    ensures injected.None? && KeyOf(user.username) in t ==> r == Failure(APIError("username exists", BAD_REQUEST))
    ensures injected.Some? && injected.value.ConditionalCheckFailed? ==> r == Failure(APIError("username exists", BAD_REQUEST))
    ensures injected.Some? && !injected.value.ConditionalCheckFailed? ==>
      r == Failure(APIError("cannot create user. " + injected.value.Shown(), INTERNAL_SERVER_ERROR))
    ensures Profiles(t) && r.Success? ==> Profiles(r.value)
  {
    ToUserItemOf(user);
    match Put(t, CreateRequest(user), injected)
    case Success(t') => Success(t')
    case Failure(e) => Failure(CreateFailure(e))
  }

  /** What escapes the `try` block of `getUser`: the APIError it throws itself, or a store failure. */
  datatype Caught = Raised(apiError: APIError) | StoreFailed(error: SdkError)

  /** The `catch` block of `getUser`: an APIError is rethrown as it is, anything else is wrapped. */
  function GetFailure(c: Caught): APIError
  {
    match c
    case Raised(e) => e
    case StoreFailed(e) => APIError("cannot find user: " + e.json, INTERNAL_SERVER_ERROR)
  }

  /** `getUser`: the stored user, or a 404 when there is no item at the user's key. */
  function GetUser(t: Table, username: string, injected: Option<SdkError>): (r: Result<User, APIError>)
    requires Profiles(t)
    ensures injected.None? ==> (r.Success? <==> KeyOf(username) in t)
    ensures r.Success? ==> KeyOf(username) in t && r.value == ToUser(username, t[KeyOf(username)])
    ensures r.Success? ==> r.value.username == username
    ensures injected.None? && KeyOf(username) !in t ==> r == Failure(APIError("username not found", NOT_FOUND))
    ensures injected.Some? ==> r == Failure(APIError("cannot find user: " + injected.value.json, INTERNAL_SERVER_ERROR))
  {
    var attempt: Result<User, Caught> :=
      match Dynamo.Get(t, KeyOf(username), injected)
      case Failure(e) => Failure(StoreFailed(e))
      case Success(None) => Failure(Raised(APIError("username not found", NOT_FOUND)))
      case Success(Some(item)) => Success(ToUser(username, item));
    match attempt
    case Success(u) => Success(u)
    case Failure(c) => Failure(GetFailure(c))
  }

  /** The update `updateUser` sends: the patch's assignments, only if the user's item exists. */
  function UpdateRequestFor(username: string, p: Patch): UpdateRequest
  {
    UpdateRequest(KeyOf(username), Some(KeyPresent), UpdateFor(p))
  }

  /** A store failure during update: a failed condition means there is no such user, anything
      else is a server error that carries the failure's text; for a malformed request that is the
      table's `validation`. */
  function UpdateFailure(f: Refusal, validation: ValidationText): (r: APIError)
    ensures f.Malformed? ==>
      r == APIError("cannot update user. " + Printed("ValidationException", validation.message), INTERNAL_SERVER_ERROR)
  {
    ValidationShown(validation);
    assert "cannot update user. " + validation.Error().Shown() == "cannot update user. " + Printed("ValidationException", validation.message);
    if f.IsConditionFailure() then APIError("username not found", NOT_FOUND)
    else if f.Malformed? then APIError("cannot update user. " + validation.Error().Shown(), INTERNAL_SERVER_ERROR)
    else APIError("cannot update user. " + f.error.Shown(), INTERNAL_SERVER_ERROR)
  }

  /** `updateUser`. It changes only the patched attributes of an existing item and never creates
      one; an empty patch builds the expression `"SET "`, which the table rejects with `validation`. */
  function UpdateUser(t: Table, username: string, p: Patch, injected: Option<SdkError>, validation: ValidationText): (r: Result<Table, APIError>)
    ensures injected.None? && |p| > 0 ==> (r.Success? <==> KeyOf(username) in t)
    ensures r.Success? ==> KeyOf(username) in t && r.value == t[KeyOf(username) := PatchedItem(t[KeyOf(username)], p)]
    ensures injected.None? && |p| > 0 && KeyOf(username) !in t ==> r == Failure(APIError("username not found", NOT_FOUND))
    ensures injected.None? && |p| == 0 ==>
      r == Failure(APIError("cannot update user. " + Printed("ValidationException", validation.message), INTERNAL_SERVER_ERROR))
    ensures injected.Some? && injected.value.ConditionalCheckFailed? ==> r == Failure(APIError("username not found", NOT_FOUND))
    ensures injected.Some? && !injected.value.ConditionalCheckFailed? ==>
      r == Failure(APIError("cannot update user. " + injected.value.Shown(), INTERNAL_SERVER_ERROR))
    ensures Profiles(t) && r.Success? ==> Profiles(r.value)
  {
    InterpretUpdateFor(p);
    ApplyEntriesEverywhere(p);
    PatchedKeepsProfile(p);
    match UpdateItem(t, UpdateRequestFor(username, p), injected)
    case Success(t') => Success(t')
    case Failure(f) => Failure(UpdateFailure(f, validation))
  }

  // ---------------------------------------------------------------------------------------------
  // Uniqueness over a sequence of creates

  /** One `createUser` call and the failure, if any, the client reports for it. */
  datatype Attempt = Attempt(user: User, injected: Option<SdkError>)

  /** How many of `attempts`, run in order from `t`, create a user named `username`. */
  function CreatesOf(t: Table, attempts: seq<Attempt>, username: string): nat
    decreases |attempts|
  {
    if |attempts| == 0 then 0
    else
      var a := attempts[0];
      match CreateUser(t, a.user, a.injected)
      case Success(t') => (if a.user.username == username then 1 else 0) + CreatesOf(t', attempts[1..], username)
      case Failure(_) => CreatesOf(t, attempts[1..], username)
  }

  /** At most one create per username ever succeeds, and none once the username is taken. */
  lemma {:induction false} AtMostOneCreate(t: Table, attempts: seq<Attempt>, username: string)
    ensures CreatesOf(t, attempts, username) <= 1
    ensures KeyOf(username) in t ==> CreatesOf(t, attempts, username) == 0
    decreases |attempts|
  {
    if |attempts| > 0 {
      var a := attempts[0];
      match CreateUser(t, a.user, a.injected)
      case Success(t') =>
        AtMostOneCreate(t', attempts[1..], username);
        if a.user.username == username {
          assert KeyOf(username) in t';
        } else {
          assert KeyOf(username) in t ==> KeyOf(username) in t';
        }
      case Failure(_) =>
        AtMostOneCreate(t, attempts[1..], username);
    }
  }
}

=== FILE: strings.dfy ===
/** String helpers shared by the update-expression builder and the validators. */
module Strings {

  /** JavaScript's `Array.prototype.join(sep)`. */
  function Join(sep: string, parts: seq<string>): string
  {
    if |parts| == 0 then ""
    else if |parts| == 1 then parts[0]
    else parts[0] + sep + Join(sep, parts[1..])
  }

  /** One character of the class `[a-zA-Z0-9]`. */
  predicate IsAlnumChar(c: char)
  {
    ('a' <= c <= 'z') || ('A' <= c <= 'Z') || ('0' <= c <= '9')
  }

  predicate IsAlnum(s: string)
  {
    forall i :: 0 <= i < |s| ==> IsAlnumChar(s[i])
  }

  /** A non-empty run of `[a-zA-Z0-9]`: an attribute name the update builder can place after `#` and `:`. */
  predicate IsIdentifier(s: string)
  {
    |s| > 0 && IsAlnum(s)
  }

  /** The positions of `s` holding a character beyond the Basic Multilingual Plane. */
  function Astral(s: string): set<nat>
  {
    set i: nat | i < |s| && s[i] as int > 0xFFFF
  }

  /** JavaScript's `s.length`: the number of UTF-16 code units, in which a character beyond the
      Basic Multilingual Plane takes a surrogate pair. */
  function Utf16Length(s: string): (n: nat)
    ensures |s| <= n <= 2 * |s|
    ensures n == |s| <==> forall i :: 0 <= i < |s| ==> s[i] as int <= 0xFFFF
  {
    AstralBound(s);
    AstralEmpty(s);
    |s| + |Astral(s)|
  }

  lemma {:induction false} AstralBound(s: string)
    ensures |Astral(s)| <= |s|
  {
    if |s| > 0 {
      var s' := s[..|s| - 1];
      AstralBound(s');
      if s[|s| - 1] as int > 0xFFFF {
        assert Astral(s) == Astral(s') + {|s| - 1};
      } else {
        assert Astral(s) == Astral(s');
      }
    }
  }

  lemma AstralEmpty(s: string)
    ensures |Astral(s)| == 0 <==> forall i :: 0 <= i < |s| ==> s[i] as int <= 0xFFFF
  {
    if exists i :: 0 <= i < |s| && s[i] as int > 0xFFFF {
      var i :| 0 <= i < |s| && s[i] as int > 0xFFFF;
      assert i in Astral(s);
    }
  }

  /** Alphanumeric text lies in the Basic Multilingual Plane, so its two lengths agree. */
  lemma AlnumUtf16Length(s: string)
    requires IsAlnum(s)
    ensures Utf16Length(s) == |s|
  {
    forall i | 0 <= i < |s| ensures s[i] as int <= 0xFFFF {
      assert IsAlnumChar(s[i]);
    }
  }

  /** Text made only of characters beyond the Basic Multilingual Plane is twice as long in UTF-16. */
  lemma {:induction false} AllAstral(s: string)
    requires forall i :: 0 <= i < |s| ==> s[i] as int > 0xFFFF
    ensures Utf16Length(s) == 2 * |s|
  {
    if |s| > 0 {
      var s' := s[..|s| - 1];
      AllAstral(s');
      assert Astral(s) == Astral(s') + {|s| - 1};
    }
  }

  /** Decimal rendering of a natural number, as string interpolation prints it. */
  function NatToString(n: nat): string
    decreases n
  {
    if n < 10 then ["0123456789"[n]]
    else NatToString(n / 10) + ["0123456789"[n % 10]]
  }
}

=== FILE: update_expression.dfy ===
/** The update-expression builder of `updateUser` (both store variants) and a parser for the
    `SET #name = :value, ...` form it emits, used by the table to interpret the request. */
module UpdateExpression {
  import opened Wrappers
  import opened Strings

  /** The three parts of an update request the builder fills in. */
  datatype Update = Update(expression: string, names: map<string, string>, values: map<string, string>)

  /** One `#name = :value` assignment as the table reads it: a name placeholder and a value placeholder. */
  datatype Clause = Clause(name: string, value: string)

  function NamePlaceholder(key: string): string { "#" + key }
  function ValuePlaceholder(key: string): string { ":" + key }

  /** `#key = :key`, the text the builder maps each entry to. */
  function Assignment(key: string): string
  {
    NamePlaceholder(key) + " = " + ValuePlaceholder(key)
  }

  function Assignments(entries: seq<(string, string)>): seq<string>
  {
    if |entries| == 0 then [] else [Assignment(entries[0].0)] + Assignments(entries[1..])
  }

  /** The `ExpressionAttributeNames` reduction: a left fold in which each entry spreads the
      accumulator and then adds `#key: key`. */
  function Names(entries: seq<(string, string)>): map<string, string>
  {
    if |entries| == 0 then map[]
    else
      var last := entries[|entries| - 1];
      Names(entries[..|entries| - 1])[NamePlaceholder(last.0) := last.0]
  }

  /** The `ExpressionAttributeValues` reduction: the same fold adding `:key: value`. */
  function Values(entries: seq<(string, string)>): map<string, string>
  {
    if |entries| == 0 then map[]
    else
      var last := entries[|entries| - 1];
      Values(entries[..|entries| - 1])[ValuePlaceholder(last.0) := last.1]
  }

  /** What `updateUser` sends for the ordered entries of its patch. */
  function Build(entries: seq<(string, string)>): Update
  {
    Update("SET " + Join(", ", Assignments(entries)), Names(entries), Values(entries))
  }

  predicate DistinctKeys(entries: seq<(string, string)>)
  {
    forall i, j :: 0 <= i < j < |entries| ==> entries[i].0 != entries[j].0
  }

  // ---------------------------------------------------------------------------------------------
  // Reading an expression back

  /** Splits off the longest prefix of `[a-zA-Z0-9]` characters. */
  function Identifier(s: string): (r: (string, string))
    ensures r.0 + r.1 == s
    ensures IsAlnum(r.0)
    ensures |r.1| > 0 ==> !IsAlnumChar(r.1[0])
  {
    if |s| == 0 || !IsAlnumChar(s[0]) then ([], s)
    else
      var (id, rest) := Identifier(s[1..]);
      ([s[0]] + id, rest)
  }

  /** One `#name = :value` clause at the front of `s`, and what follows it. */
  function ParseClause(s: string): (r: Option<(Clause, string)>)
    ensures r.Some? ==> |r.value.1| < |s|
  {
    if |s| == 0 || s[0] != '#' then None
    else
      var (name, afterName) := Identifier(s[1..]);
      if |name| == 0 || |afterName| < 4 || afterName[..4] != " = :" then None
      else
        var (value, rest) := Identifier(afterName[4..]);
        if |value| == 0 then None
        else Some((Clause(NamePlaceholder(name), ValuePlaceholder(value)), rest))
  }

  /** A non-empty `, `-separated list of clauses filling all of `s`. */
  function ParseClauses(s: string): Option<seq<Clause>>
    decreases |s|
  {
    match ParseClause(s)
    case None => None
    case Some((c, rest)) =>
      if |rest| == 0 then Some([c])
      else if |rest| >= 2 && rest[..2] == ", " then
        match ParseClauses(rest[2..])
        case None => None
        case Some(cs) => Some([c] + cs)
      else None
  }

  /** The clauses of a `SET` expression; `None` for text the table rejects as a syntax error,
      in particular the bare `"SET "` that has no clause at all. */
  function Parse(expression: string): Option<seq<Clause>>
  {
    if |expression| >= 4 && expression[..4] == "SET " then ParseClauses(expression[4..]) else None
  }

  /** The clauses the builder means for `entries`: `#k = :k` for each key in order. */
  function ClausesOf(entries: seq<(string, string)>): (r: seq<Clause>)
    ensures |r| == |entries|
    ensures forall i :: 0 <= i < |entries| ==> r[i] == Clause(NamePlaceholder(entries[i].0), ValuePlaceholder(entries[i].0))
  {
    if |entries| == 0 then [] else [Clause(NamePlaceholder(entries[0].0), ValuePlaceholder(entries[0].0))] + ClausesOf(entries[1..])
  }

  predicate AllIdentifiers(entries: seq<(string, string)>)
  {
    forall i :: 0 <= i < |entries| ==> IsIdentifier(entries[i].0)
  }

  // ---------------------------------------------------------------------------------------------
  // The builder and the parser agree

  lemma {:induction false} IdentifierStopsAt(id: string, tail: string)
    requires IsAlnum(id)
    requires |tail| > 0 ==> !IsAlnumChar(tail[0])
    ensures Identifier(id + tail) == (id, tail)
    decreases |id|
  {
    if |id| == 0 {
      assert id + tail == tail;
    } else {
      assert (id + tail)[1..] == id[1..] + tail;
      IdentifierStopsAt(id[1..], tail);
      assert [id[0]] + id[1..] == id;
    }
  }

  /** The parser reads back the clause the builder wrote for one key, leaving the rest untouched. */
  lemma {:induction false} ParseAssignment(key: string, tail: string)
    requires IsIdentifier(key)
    requires |tail| > 0 ==> !IsAlnumChar(tail[0])
    ensures ParseClause(Assignment(key) + tail) == Some((Clause(NamePlaceholder(key), ValuePlaceholder(key)), tail))
  {
    var s := Assignment(key) + tail;
    assert s[0] == '#';
    var afterName := " = :" + key + tail;
    assert s[1..] == key + afterName;
    IdentifierStopsAt(key, afterName);
    assert afterName[..4] == " = :";
    assert afterName[4..] == key + tail;
    IdentifierStopsAt(key, tail);
  }

  lemma {:induction false} ParseJoinedAssignments(entries: seq<(string, string)>)
    requires |entries| > 0
    requires AllIdentifiers(entries)
    ensures ParseClauses(Join(", ", Assignments(entries))) == Some(ClausesOf(entries))
    decreases |entries|
  {
    var first := Assignment(entries[0].0);
    if |entries| == 1 {
      assert Assignments(entries) == [first];
      assert Join(", ", [first]) == first;
      assert first + [] == first;
      ParseAssignment(entries[0].0, []);
      assert ParseClause(first) == Some((ClausesOf(entries)[0], []));
      assert ClausesOf(entries) == [ClausesOf(entries)[0]];
    } else {
      var rest := entries[1..];
      assert AllIdentifiers(rest) by {
        forall i | 0 <= i < |rest| ensures IsIdentifier(rest[i].0) { assert rest[i] == entries[i + 1]; }
      }
      var tailText := Join(", ", Assignments(rest));
      assert Assignments(entries) == [first] + Assignments(rest);
      assert Join(", ", Assignments(entries)) == first + (", " + tailText);
      ParseAssignment(entries[0].0, ", " + tailText);
      assert (", " + tailText)[..2] == ", ";
      assert (", " + tailText)[2..] == tailText;
      ParseJoinedAssignments(rest);
      assert ClausesOf(entries) == [ClausesOf(entries)[0]] + ClausesOf(rest);
    }
  }

  /** Round trip: the table reads the builder's expression as exactly one `#k = :k` clause per
      entry, in entry order; the expression built for no entries is `"SET "`, which does not parse. */
  lemma ParseBuild(entries: seq<(string, string)>)
    requires AllIdentifiers(entries)
    ensures |entries| == 0 ==> Build(entries).expression == "SET " && Parse(Build(entries).expression).None?
    ensures |entries| > 0 ==> Parse(Build(entries).expression) == Some(ClausesOf(entries))
  {
    var e := Build(entries).expression;
    assert e[..4] == "SET ";
    assert e[4..] == Join(", ", Assignments(entries));
    if |entries| > 0 {
      ParseJoinedAssignments(entries);
    }
  }

  /** The names map holds `#k: k` for every key of the patch and nothing else. */
  lemma {:induction false} NamesContent(entries: seq<(string, string)>)
    ensures Names(entries).Keys == set i | 0 <= i < |entries| :: NamePlaceholder(entries[i].0)
    ensures forall i :: 0 <= i < |entries| ==> Names(entries)[NamePlaceholder(entries[i].0)] == entries[i].0
    decreases |entries|
  {
    if |entries| > 0 {
      var n := |entries| - 1;
      var init := entries[..n];
      NamesContent(init);
      assert forall i :: 0 <= i < n ==> init[i] == entries[i];
      forall i | 0 <= i < |entries|
        ensures Names(entries)[NamePlaceholder(entries[i].0)] == entries[i].0
      {
        if NamePlaceholder(entries[i].0) == NamePlaceholder(entries[n].0) {
          assert entries[i].0 == NamePlaceholder(entries[i].0)[1..];
        }
      }
    }
  }

  /** With distinct keys the values map holds `:k: v` for every entry `[k, v]` and nothing else. */
  lemma {:induction false} ValuesContent(entries: seq<(string, string)>)
    requires DistinctKeys(entries)
    ensures Values(entries).Keys == set i | 0 <= i < |entries| :: ValuePlaceholder(entries[i].0)
    ensures forall i :: 0 <= i < |entries| ==> Values(entries)[ValuePlaceholder(entries[i].0)] == entries[i].1
    decreases |entries|
  {
    if |entries| > 0 {
      var n := |entries| - 1;
      var init := entries[..n];
      assert forall i :: 0 <= i < n ==> init[i] == entries[i];
      ValuesContent(init);
      forall i | 0 <= i < n
        ensures ValuePlaceholder(entries[i].0) != ValuePlaceholder(entries[n].0)
      {
        assert entries[i].0 == ValuePlaceholder(entries[i].0)[1..];
        assert entries[n].0 == ValuePlaceholder(entries[n].0)[1..];
      }
    }
  }

  /** The names map defines exactly the name placeholders the built clauses use. */
  lemma NamesUsed(entries: seq<(string, string)>)
    ensures Names(entries).Keys == set c | c in ClausesOf(entries) :: c.name
  {
    var cs := ClausesOf(entries);
    NamesContent(entries);
    forall n | n in Names(entries).Keys ensures n in (set c | c in cs :: c.name) {
      var i :| 0 <= i < |entries| && n == NamePlaceholder(entries[i].0);
      assert cs[i] in cs;
    }
  }

  /** With distinct keys the values map defines exactly the value placeholders the built clauses use. */
  lemma ValuesUsed(entries: seq<(string, string)>)
    requires DistinctKeys(entries)
    ensures Values(entries).Keys == set c | c in ClausesOf(entries) :: c.value
  {
    var cs := ClausesOf(entries);
    ValuesContent(entries);
    forall v | v in Values(entries).Keys ensures v in (set c | c in cs :: c.value) {
      var i :| 0 <= i < |entries| && v == ValuePlaceholder(entries[i].0);
      assert cs[i] in cs;
    }
  }

  /** The names and values maps hold exactly the placeholders the built clauses use. */
  lemma PlaceholdersUsed(entries: seq<(string, string)>)
    requires DistinctKeys(entries)
    ensures Names(entries).Keys == set c | c in ClausesOf(entries) :: c.name
    ensures Values(entries).Keys == set c | c in ClausesOf(entries) :: c.value
  {
    NamesUsed(entries);
    ValuesUsed(entries);
  }
}

=== FILE: users.dfy ===
/** The user domain type and the three-operation store interface
    (packages/rest-api-ecs/src/store/user/user-store.ts). */
module Users {
  import opened Wrappers

  /** A user: `username`, `fullName` and `email` are always present, `address` is optional. */
  datatype User = User(username: string, fullName: string, email: string, address: Option<string>)

  /** The attributes an update may touch. `username` is not among them, so no update can rename a user. */
  datatype Field = FullName | Email | Address

  /** The property name a field has in request bodies and in stored records. */
  function FieldName(f: Field): string
  {
    match f
    case FullName => "fullName"
    case Email => "email"
    case Address => "address"
  }

  /** One `[key, value]` pair of `Object.entries(props)`. */
  datatype Entry = Entry(field: Field, value: string)

  predicate DistinctFields(entries: seq<Entry>)
  {
    forall i, j :: 0 <= i < j < |entries| ==> entries[i].field != entries[j].field
  }

  /** The `props` argument of `updateUser`: the present fields of `{fullName?, email?, address?}`
      in the object's own key order. */
  type Patch = entries: seq<Entry> | DistinctFields(entries)

  /** The value a patch gives to `f`, if it mentions `f`. */
  function Lookup(p: seq<Entry>, f: Field): (r: Option<string>)
    ensures r.Some? <==> exists i :: 0 <= i < |p| && p[i].field == f
    ensures r.Some? ==> exists i :: 0 <= i < |p| && p[i] == Entry(f, r.value)
  {
    if |p| == 0 then None
    else if p[0].field == f then Some(p[0].value)
    else
      var r := Lookup(p[1..], f);
      assert forall i :: 0 < i < |p| ==> p[i] == p[1..][i - 1];
      r
  }

  function SetField(u: User, e: Entry): User
  {
    match e.field
    case FullName => u.(fullName := e.value)
    case Email => u.(email := e.value)
    case Address => u.(address := Some(e.value))
  }

  /** The user a patch describes: every field the patch mentions takes the patch's value,
      every other field, and always the username, stays as it was. */
  function Patched(u: User, p: Patch): (r: User)
    ensures r.username == u.username
    ensures r.fullName == Lookup(p, FullName).GetOr(u.fullName)
    ensures r.email == Lookup(p, Email).GetOr(u.email)
    ensures r.address == (if Lookup(p, Address).Some? then Lookup(p, Address) else u.address)
    decreases |p|
  {
    if |p| == 0 then u
    else
      var rest: Patch := p[1..];
      assert forall f :: f != p[0].field ==> Lookup(p, f) == Lookup(rest, f);
      assert forall i :: 0 <= i < |rest| ==> rest[i] == p[i + 1];
      Patched(SetField(u, p[0]), rest)
  }

  /** The calls the store interface offers: exactly create, get and update. */
  datatype Operation =
    | CreateUser(user: User)
    | GetUser(username: string)
    | UpdateUser(username: string, patch: Patch)
}

=== FILE: validators.dfy ===
/** The two request-validation rule sets side by side: the container service's Joi schemas and
    the serverless service's API Gateway schemas. Both require the same fields and refuse the same
    unknown fields; only the Joi schemas bound lengths, refuse empty strings and check the
    username's characters and the email's syntax. */
module Validators {
  import opened Wrappers
  import opened Strings
  import opened Bodies
  import Json
  import Joi
  import Gateway
  import EcsRoutes

  /** Every create body the Joi schema accepts passes the gateway schema. */
  lemma JoiCreateImpliesGateway(body: Json.Object, isEmail: string -> bool)
    ensures |Joi.Validate(EcsRoutes.CreateSchema, body, isEmail)| == 0 ==> Gateway.Accepts(Gateway.CreateUserSchema, body)
  {
    EcsRoutes.CreateBodyAccepted(body, isEmail);
    Gateway.CreateAcceptsUsers(body);
  }

  /** Every update body the Joi schema accepts passes the gateway schema. */
  lemma JoiUpdateImpliesGateway(body: Json.Object, isEmail: string -> bool)
    ensures |Joi.Validate(EcsRoutes.UpdateSchema, body, isEmail)| == 0 ==> Gateway.Accepts(Gateway.UpdateUserSchema, body)
  {
    EcsRoutes.UpdateBodyAccepted(body, isEmail);
    Gateway.UpdateAcceptsPatches(body);
  }

  /** The converse fails: a three-letter username passes the gateway and is refused by Joi. */
  lemma ShortUsernameOnlyJoiRefuses(isEmail: string -> bool)
    ensures
      var body: Json.Object := [("username", Json.Str("abc")), ("fullName", Json.Str("A B")), ("email", Json.Str("a@b.com"))];
      Gateway.Accepts(Gateway.CreateUserSchema, body) && |Joi.Validate(EcsRoutes.CreateSchema, body, isEmail)| > 0
  {
    var body: Json.Object := [("username", Json.Str("abc")), ("fullName", Json.Str("A B")), ("email", Json.Str("a@b.com"))];
    Json.GetAt(body, 0);
    Json.GetAt(body, 1);
    Json.GetAt(body, 2);
    assert Json.Keys(body) == {"username", "fullName", "email"};
    Gateway.CreateAcceptsUsers(body);
    EcsRoutes.CreateBodyAccepted(body, isEmail);
  }

  /** Both update schemas accept the empty object. */
  lemma BothAcceptEmptyUpdate(isEmail: string -> bool)
    ensures Gateway.Accepts(Gateway.UpdateUserSchema, [])
    ensures |Joi.Validate(EcsRoutes.UpdateSchema, [], isEmail)| == 0
  {
    Gateway.UpdateAcceptsEmpty();
    EcsRoutes.UpdateBodyAccepted([], isEmail);
  }
}

=== FILE: wrappers.dfy ===
/** Option and Result, the failure-carrying values every layer of the model returns. */
module Wrappers {

  /** A value that may be missing: JavaScript's `undefined` where the source allows it. */
  datatype Option<+T> = None | Some(value: T) {

    /** The value, or `default` when there is none. */
    function GetOr(default: T): T {
      match this
      case Some(v) => v
      case None => default
    }
  }

  /** The outcome of an operation that either completes or throws. */
  datatype Result<+R, +E> = Success(value: R) | Failure(error: E) {

    predicate IsFailure() {
      Failure?
    }

    function PropagateFailure<U>(): Result<U, E>
      requires Failure?
    {
      Failure(error)
    }

    function Extract(): R
      requires Success?
    {
      value
    }
  }
}
